=== FILE: README.md ===
# Puzzle-solver board recognition, modelled in Dafny

This project models the recognition pass of the puzzle solver
(`agent/go-service/puzzle-solver/recognition.go`). The pass reads one
screenshot of the puzzle screen and produces a `BoardDesc`, the record the
solver consumes. The record holds:

- the board's width and height in blocks;
- for every hue family, the projection figures above and left of the board;
- the banned blocks and, per hue family, the locked blocks;
- the pieces still to be placed (block offsets plus a hue);
- the hue families themselves.

The model keeps the decision rules of the pass and leaves out the pixels.
Every area variance, HSV mean or median, template match and coordinate
conversion is an input: a function-valued parameter or a sequence of
matches. What remains is modelled exactly:

- the branches, thresholds, loop orders and early returns;
- the integer conversions (Go's `int(x)` truncation and `math.Round`);
- the map-order-dependent selection loop.

The modules follow the stages of the pass:

- `Numeric`: Go's truncating `int(x)` and half-away-from-zero `math.Round` over exact reals.
- `Grid`: positions and the row-major sweeps (y outer, x inner) of the thumbnail strip, the preview square and the board.
- `BoardSize`: `getPossibleBoardSize`.
  - A squared-confidence vote for every candidate dimension in [2, 2 * maxExtent + 1].
  - A selection over the score map, modelled for an arbitrary iteration order.
- `Projection`: `getProjFigureNumber` and `getProjDesc`.
  - The outward scan for the extent of coloured lines.
  - The decoding of that extent into a figure count.
- `Thumbnails`: `getAllPuzzleThumbLoc`.
  - The strip scan with its three false-positive rejections: an uncertain cell, a gap before a candidate, a full strip.
- `PuzzleShape`:
  - `getPuzzleDesc`, `doPreviewPuzzle` and `getAllPuzzleDesc`;
  - the preview-square sweep, the truncated mean hue, and the abort on a failed stabilization wait.
- `Blocks`:
  - `convertBlockLtToBannedBlockDesc`, an in-bounds filter over grid coordinates;
  - `getLockedBlocksDesc`, the locked-cell sweep of the board.
- `HuePartition`:
  - `getPossibleHues`;
  - the per-hue claiming of locked blocks in `Run`, where a claimed block leaves the pool.
- `Recognition`: `Run`. It models the order of the stages, the soft empty result when no piece is found, the fatal results, and the assembled board.

## Model

| member | source | states |
|---|---|---|
| Numeric.Trunc | agent/go-service/puzzle-solver/recognition.go:353 | `int(x)` drops the fraction toward zero: the result lies within 1 of x, on the zero side. |
| Numeric.Round | agent/go-service/puzzle-solver/recognition.go:252 | `math.Round` is the nearest integer, and an exact half goes away from zero. |
| BoardSize.DimScore | agent/go-service/puzzle-solver/recognition.go:79-89 | A dimension's score is never negative. It is 0 when no match lies in its voting window. It is at least the squared confidence of every match that votes for it. |
| BoardSize.DimScoreAppend | agent/go-service/puzzle-solver/recognition.go:82-88 | The score over two runs of matches is the sum of their scores: votes are tallied one match at a time. |
| BoardSize.DimScoreSingle | agent/go-service/puzzle-solver/recognition.go:84-87 | One match adds its squared confidence when it lies in the voting window, and nothing otherwise. With DimScoreAppend this makes the score exactly the sum of the voting matches' squared confidences. |
| BoardSize.Scores | agent/go-service/puzzle-solver/recognition.go:78-90 | The score map has exactly the keys 2 .. 2 * maxExtent + 1, each mapped to its vote total. |
| BoardSize.PickBest | agent/go-service/puzzle-solver/recognition.go:91-99 | The selection loop, for any order that visits each key, returns the key with the maximal score, ties going to the larger key. With no keys it returns 0. |
| BoardSize.WinnerUnique | agent/go-service/puzzle-solver/recognition.go:91-99 | The maximal-score, largest-key winner is unique. |
| BoardSize.PickBestOrderIndependent | agent/go-service/puzzle-solver/recognition.go:91-99 | The map's iteration order cannot change the chosen dimension. |
| BoardSize.EstimateDim | agent/go-service/puzzle-solver/recognition.go:76-100 | The dimension is 0 exactly when template matching found nothing (or the range is empty). Otherwise it lies in [2, 2 * maxExtent + 1] and is the winner of the score map. |
| BoardSize.ZeroScoresPicksLargest | agent/go-service/puzzle-solver/recognition.go:79-99 | When matches exist but every candidate scores 0 (no vote, or only zero-confidence votes), the largest candidate 2 * maxExtent + 1 is chosen. |
| BoardSize.NoVotesPicksLargest | agent/go-service/puzzle-solver/recognition.go:79-99 | In particular, when matches exist but none votes for any dimension, the largest candidate 2 * maxExtent + 1 is chosen. |
| BoardSize.EstimateSize | agent/go-service/puzzle-solver/recognition.go:66-136 | Width and height are each 0 exactly when their markers are missing (or the range is empty). Otherwise each lies in [2, 2 * maxExtent + 1] and is the winner (maximal score, ties to the larger key) of its axis's score map. |
| Projection.Marks | agent/go-service/puzzle-solver/recognition.go:214-228 | One mark per scanned line. A line is marked when some sample point is saturated and bright enough. |
| Projection.ScanFrom | agent/go-service/puzzle-solver/recognition.go:214-230 | From any point of the outward scan, the final extent is not smaller than the current one, and nothing beyond it is marked. |
| Projection.Extent | agent/go-service/puzzle-solver/recognition.go:211-249 | The extent is one past the outermost marked line, and 0 when no line is marked. |
| Projection.ExtentMonotone | agent/go-service/puzzle-solver/recognition.go:211-249 | Marking more lines never shrinks the extent. |
| Projection.ExtentExtend | agent/go-service/puzzle-solver/recognition.go:214-229 | Scanning further never shrinks the extent. Unmarked extra lines leave it unchanged, so gaps inside a figure are tolerated. |
| Projection.Decode | agent/go-service/puzzle-solver/recognition.go:251-256 | The figure count is never negative. It is 0 exactly when (extent - initGap) / eachGap is below one half. Otherwise it lies in (ratio - 1/2, ratio + 1/2], so an exact half rounds up. |
| Projection.DecodeMonotone | agent/go-service/puzzle-solver/recognition.go:251-256 | A larger extent never decodes to a smaller count. |
| Projection.DecodeHalfUp | agent/go-service/puzzle-solver/recognition.go:252 | An extent ratio of exactly k + 1/2 decodes to k + 1, as `math.Round` rounds halves away from zero. |
| Projection.DecodeExact | agent/go-service/puzzle-solver/recognition.go:251-256 | An extent of exactly initGap + k * eachGap decodes to k. |
| Projection.FigureNumber | agent/go-service/puzzle-solver/recognition.go:198-257 | A figure's count is never negative. It is 0 exactly when its extent ratio is below one half, and otherwise lies in (ratio - 1/2, ratio + 1/2]. |
| Projection.FigureNumberMonotone | agent/go-service/puzzle-solver/recognition.go:198-257 | A figure whose marked lines include another's never reads a smaller count. |
| Projection.GetProjDesc | agent/go-service/puzzle-solver/recognition.go:156-196 | The projection holds one count per column (top figures) and one per row (left figures), each the count of its own figure, each non-negative. |
| Thumbnails.CandidateCells | agent/go-service/puzzle-solver/recognition.go:367-384 | Exactly the candidate cells. All cells are kept iff every cell is a candidate, and none are kept when no cell is one. |
| Thumbnails.CandidateCellsSorted | agent/go-service/puzzle-solver/recognition.go:367-384 | The candidates of a row-major sweep come out in row-major order. |
| Thumbnails.ScanOutcome | agent/go-service/puzzle-solver/recognition.go:361-388 | The scan is rejected iff some cell is ambiguous, or a candidate follows a background cell (or an earlier gap). Otherwise it collects exactly the candidate cells. |
| Thumbnails.ThumbLocs | agent/go-service/puzzle-solver/recognition.go:357-397 | The result is empty when the strip is distrusted (an ambiguous cell, a gap, or a full strip). Otherwise it is exactly the candidate cells, sorted row-major, fewer than the strip holds. It is empty when there are no candidates. |
| Thumbnails.ThumbOutcome | agent/go-service/puzzle-solver/recognition.go:357-397 | The strip scan restated over cells: rejection iff an ambiguous cell or a gap exists; otherwise the found list is the candidate cells, and it fills the strip iff every cell is a candidate. |
| PuzzleShape.Shape | agent/go-service/puzzle-solver/recognition.go:322-345 | The block offsets are exactly the swept offsets whose areas are varied, saturated and bright enough. |
| PuzzleShape.ShapeSorted | agent/go-service/puzzle-solver/recognition.go:322-345 | Selecting blocks keeps the row-major sweep order. |
| PuzzleShape.SweepOutcome | agent/go-service/puzzle-solver/recognition.go:322-347 | The sweep loop appends exactly the block offsets, adds exactly their median hues, and counts them. |
| PuzzleShape.PuzzleFromPreview | agent/go-service/puzzle-solver/recognition.go:312-355 | No piece exactly when no offset of the square is a block. Otherwise the piece has every block offset, sorted row-major, and a hue equal to the truncated mean of the blocks' median hues. |
| PuzzleShape.PieceHueInRange | agent/go-service/puzzle-solver/recognition.go:340-353 | When every block's median hue lies in [0, 360), the piece's hue lies in [0, 360). |
| PuzzleShape.PreviewPiece | agent/go-service/puzzle-solver/recognition.go:399-431 | No piece when the screenshot fails or the preview shows no block. Otherwise a well-formed piece whose blocks are exactly the preview's block offsets and whose hue is the truncated mean of those blocks' median hues. |
| PuzzleShape.PreviewFrom | agent/go-service/puzzle-solver/recognition.go:270-282 | The preview loop fails iff some remaining stabilization wait fails. Otherwise it yields at most one piece per thumbnail, and exactly one per thumbnail when every preview shows a piece. |
| PuzzleShape.PreviewFromSound | agent/go-service/puzzle-solver/recognition.go:270-279 | Every piece the loop returns is the piece some thumbnail's preview showed. |
| PuzzleShape.PreviewFromComplete | agent/go-service/puzzle-solver/recognition.go:270-279 | Every piece a thumbnail's preview showed is among the pieces the loop returns. |
| PuzzleShape.PreviewFromSplit | agent/go-service/puzzle-solver/recognition.go:270-279 | The loop appends in thumbnail order: the pieces of a range are those of its first part followed by those of the rest. |
| PuzzleShape.AllPuzzleDesc | agent/go-service/puzzle-solver/recognition.go:259-283 | Any failed stabilization wait empties the piece list. Every returned piece is well formed and is the piece some thumbnail's preview showed. Without a failed wait, every piece a preview showed is returned. There are at most one piece per thumbnail, and one per thumbnail when every preview shows a piece. |
| PuzzleShape.AllPuzzleDescSnoc | agent/go-service/puzzle-solver/recognition.go:270-281 | Without a failed wait, the pieces of all thumbnails are those of all but the last, followed by the last thumbnail's piece if it shows one; this fixes the order and multiplicity of the list. |
| Blocks.BannedBlocks | agent/go-service/puzzle-solver/recognition.go:138-154 | A banned marker is kept (with its grid and raw location) iff its grid coordinate is on the board. Nothing else is kept, and no more entries than markers. |
| Blocks.BannedBlocksAppend | agent/go-service/puzzle-solver/recognition.go:141-152 | The conversion distributes over concatenation: markers are judged one at a time, in order. |
| Blocks.LockedScan | agent/go-service/puzzle-solver/recognition.go:436-453 | The sweep keeps exactly the locked cells it visits, each with its pixel corner and truncated median hue. |
| Blocks.LockedScanSorted | agent/go-service/puzzle-solver/recognition.go:436-453 | Scanning a row-major sweep lists the locked cells in row-major order. |
| Blocks.LockedBlocks | agent/go-service/puzzle-solver/recognition.go:433-456 | The locked blocks are exactly the board cells whose area is saturated and bright enough. Their locations strictly increase in row-major order. |
| HuePartition.PieceHues | agent/go-service/puzzle-solver/recognition.go:50-53 | One hue per piece, in piece order. |
| HuePartition.Representatives | agent/go-service/puzzle-solver/recognition.go:56-63 | Every nonempty cluster contributes its mean hue. Every result is the mean of some nonempty cluster, and there are no more results than clusters. |
| HuePartition.RepresentativesInOrder | agent/go-service/puzzle-solver/recognition.go:56-63 | When no cluster is empty, there is one representative per cluster: the cluster's mean, in cluster order. |
| HuePartition.RepresentativesAppend | agent/go-service/puzzle-solver/recognition.go:56-63 | Clusters are handled one at a time, in order: the representatives of a concatenation are the concatenated representatives. |
| HuePartition.RepresentativesSingle | agent/go-service/puzzle-solver/recognition.go:56-63 | A single cluster contributes its mean if it is nonempty and nothing otherwise; with RepresentativesAppend this fixes the representatives of every cluster list. |
| HuePartition.PossibleHues | agent/go-service/puzzle-solver/recognition.go:49-64 | The hue families are the means of the nonempty clusters of the pieces' hues: each nonempty cluster's mean is a family, each family is such a mean, and with no empty cluster they are the means in cluster order. |
| HuePartition.Claim | agent/go-service/puzzle-solver/recognition.go:532-538 | Claiming for one hue takes every remaining block near the hue and only such blocks. It removes exactly those from the pool, so taken plus remaining equals what was there. |
| HuePartition.OwnedSorted | agent/go-service/puzzle-solver/recognition.go:530-536 | A family's locked blocks keep the order of the locked-block list. |
| HuePartition.ClaimStep | agent/go-service/puzzle-solver/recognition.go:531-538 | The claim for family k takes exactly the blocks near family k and no earlier family, and leaves the pool of family k + 1. |
| HuePartition.ClaimFromOwned | agent/go-service/puzzle-solver/recognition.go:517-543 | From family k on, the loop's groups are exactly the blocks each family owns. |
| HuePartition.FullPoolIsPoolAtStart | agent/go-service/puzzle-solver/recognition.go:517-533 | Before the loop every locked block is in the pool. |
| HuePartition.LockedGroups | agent/go-service/puzzle-solver/recognition.go:517-543 | One group per hue family. A locked block belongs to family j iff it is near family j and near no earlier family. No block belongs to two families. |
| Recognition.HueLoop | agent/go-service/puzzle-solver/recognition.go:517-543 | The per-hue loop never hits the projection length mismatch. It yields one projection and one locked group per family: each projection is the one decoded from its family's figures, and the groups are those of the claim partition. |
| Recognition.Assemble | agent/go-service/puzzle-solver/recognition.go:504-555 | Once the size is known the pass always succeeds. The board keeps the size and pieces. Its hue families are those of the pieces, its banned blocks are the converted markers, its locked groups are the claim partition of the board's locked blocks, and each projection is decoded from its family's figures at the board's size. Banned and locked blocks lie on the board. No locked cell appears in two groups, and each group is in strictly increasing row-major order, so none repeats within a group. |
| Recognition.LockedGroupsValid | agent/go-service/puzzle-solver/recognition.go:508-543 | Locked groups hold only on-board cells, and no cell appears in two groups. |
| Recognition.LockedGroupsSorted | agent/go-service/puzzle-solver/recognition.go:508-543 | Each locked group lists its cells in strictly increasing row-major order, so no cell repeats within a group. |
| Recognition.Run | agent/go-service/puzzle-solver/recognition.go:472-569 | The pass ends with NoImage iff there is no image. It ends softly iff there are no pieces. It ends with NoBoardSize iff there are pieces but either marker set is empty (or the range is empty). It never fails on a length mismatch. Otherwise it returns a valid board whose size is the estimated size and whose pieces are the extracted pieces. |
| Recognition.RunBoardContents | agent/go-service/puzzle-solver/recognition.go:504-555 | The recognized board's hue families are those of the extracted pieces. Its banned blocks are the converted markers, and its locked groups are the claim partition of the board's locked blocks. Each projection is decoded from its family's figures at the board's size. |
| Recognition.NoCandidatesNoPuzzles | agent/go-service/puzzle-solver/recognition.go:357-397 | A strip without a single thumbnail candidate ends the pass softly, with no pieces. |

## Left out

- Device I/O is not modelled: template matching (`matchTemplateAll`), the `WaitStable` task, touch drags, screenshots and the tab key of `doEnsureTab`. Their results are inputs: marker matches, a preview outcome per thumbnail, and one screen already on tab 1.
- `doEnsureTab` returns nil when the refreshed screenshot fails, and `Run` then goes on with a nil image. The model has no separate outcome for this: the screen after the tab check is an input.
- Pixel sampling (`getAreaVariance`, `getAreaMeanHSV`, `getAreaMidHSV`, `getPixelHSV`) is not modelled. Each becomes a function from a position to the sampled values.
- Coordinate conversion is not modelled. The conversions between grid and pixel coordinates are parameters (`convertLTCoordToBoardCoord`, `convertBoardCoordToLTCoord`), and so are the pixel positions of the projection figures and preview blocks. Thumbnail locations are reported as strip cells (column, row) rather than pixel corners.
- `clusterHues`, `meanHue` and `diffHue` live in another file and are not part of this model. They are parameters, so nothing is stated about the clusters themselves.
- HuePartition.PossibleHues: when some cluster is empty, the order of the families is pinned only through HuePartition.RepresentativesAppend, not by a single index-wise clause. Because the cluster helper is a parameter, nothing is said about the hue distance between families.
- A preview whose stabilization wait failed is never examined: the loop returns before previewing. PuzzleShape.PreviewPiece therefore gives no piece for it, and no contract depends on that choice.
- Floating point is modelled as exact reals, so float64 rounding error is not modelled. Comparisons, truncation and `math.Round` follow Go's definitions.
- Logging, JSON marshalling of the result (and its `{}` fallback on a marshal error) and the recognition box are not modelled.
- BoardSize.DimScore: its own contract gives only bounds (non-negative, 0 without votes, at least each vote's weight). That the score is exactly the sum of the voting matches' squared confidences is stated by BoardSize.DimScoreAppend with BoardSize.DimScoreSingle, not by a clause of DimScore itself.
- Projection.Decode: requires a positive spacing between figure lines (`BOARD_PROJ_EACH_GAP`). The source divides by this constant, which is positive.
- The per-line scan of a projection figure stops at the first sample point that qualifies. The model only asks whether some sample point qualifies, which gives the same mark.
- The piece hue is the plain arithmetic mean of the median hues, truncated, as the code computes it. It is not a circular mean, so a piece whose blocks straddle hue 0 averages across the wrap.

=== FILE: blocks.dfy ===
/** Block classification: banned cells and locked (pre-filled) cells.

    Banned cells are found by template matching, which reports the pixel
    corner of each marker; each corner is mapped to a grid cell and kept
    only when the cell is on the board. Locked cells are found by visiting
    every cell of the board row by row and testing the mean colour of its
    block: saturated and bright enough means locked, and the block's median
    hue is recorded. The two coordinate converters between pixel corners
    and grid cells are not part of this model and are parameters. */
module Blocks {
  import opened Numeric
  import opened Grid
  import opened Color

  /** `BannedBlockDesc`: grid cell and the pixel corner it was seen at. */
  datatype BannedBlockDesc = BannedBlockDesc(loc: Pos, rawLoc: Pos)

  /** `LockedBlockDesc`: grid cell, its pixel corner and its hue. */
  datatype LockedBlockDesc = LockedBlockDesc(loc: Pos, rawLoc: Pos, hue: int)

  /** Mean saturation and value a locked block exceeds. */
  datatype LockedLimits = LockedLimits(satGrt: real, valGrt: real)

  /** Pixel corner to grid cell and back, for a board of the given size. */
  type ToGrid = (Pos, int, int) -> Pos
  type ToPixel = (Pos, int, int) -> Pos

  /** Cell `p` lies on a `w` by `h` board. */
  predicate OnBoard(p: Pos, w: int, h: int)
  {
    InBox(p, 0, w, 0, h)
  }

  /** The banned descriptor for a marker seen at pixel corner `raw`. */
  function BannedAt(raw: Pos, w: int, h: int, toGrid: ToGrid): BannedBlockDesc
  {
    BannedBlockDesc(toGrid(raw, w, h), raw)
  }

  /** `convertBlockLtToBannedBlockDesc`: one descriptor for each marker
      whose cell is on the board, in the order of the markers, and nothing
      for the others. */
  function BannedBlocks(w: int, h: int, blocks: seq<Pos>, toGrid: ToGrid): (r: seq<BannedBlockDesc>)
    ensures |r| <= |blocks|
    ensures forall b :: b in r ==> OnBoard(b.loc, w, h) && b == BannedAt(b.rawLoc, w, h, toGrid)
    ensures forall raw :: BannedAt(raw, w, h, toGrid) in r <==>
      raw in blocks && OnBoard(toGrid(raw, w, h), w, h)
    decreases |blocks|
  {
    if |blocks| == 0 then []
    else
      var b := BannedAt(blocks[0], w, h, toGrid);
      var rest := BannedBlocks(w, h, blocks[1..], toGrid);
      assert forall raw :: raw in blocks <==> raw == blocks[0] || raw in blocks[1..];
      if OnBoard(b.loc, w, h) then [b] + rest else rest
  }

  /** The filter works marker by marker, so it keeps the markers' order:
      filtering a concatenation concatenates the filtered parts. */
  lemma {:induction false} BannedBlocksAppend(w: int, h: int, b1: seq<Pos>, b2: seq<Pos>, toGrid: ToGrid)
    ensures BannedBlocks(w, h, b1 + b2, toGrid) == BannedBlocks(w, h, b1, toGrid) + BannedBlocks(w, h, b2, toGrid)
    decreases |b1|
  {
    if |b1| == 0 {
      assert b1 + b2 == b2;
    } else {
      assert (b1 + b2)[1..] == b1[1..] + b2;
      BannedBlocksAppend(w, h, b1[1..], b2, toGrid);
    }
  }

  /** A cell of the board looks locked: the mean colour of its block is
      saturated and bright enough. */
  predicate IsLockedCell(p: Pos, w: int, h: int, toPixel: ToPixel, area: Pos -> Area, lim: LockedLimits)
  {
    var a := area(toPixel(p, w, h));
    a.mean.s > lim.satGrt && a.mean.v > lim.valGrt
  }

  /** The locked descriptor for cell `p`: its pixel corner and the median
      hue of its block, truncated. */
  function LockedAt(p: Pos, w: int, h: int, toPixel: ToPixel, area: Pos -> Area): LockedBlockDesc
  {
    var lt := toPixel(p, w, h);
    LockedBlockDesc(p, lt, Trunc(area(lt).mid.h))
  }

  /** The locked cells among `cells`, in order. */
  function LockedScan(cells: seq<Pos>, w: int, h: int, toPixel: ToPixel, area: Pos -> Area, lim: LockedLimits): (r: seq<LockedBlockDesc>)
    ensures forall i :: 0 <= i < |r| ==>
      r[i].loc in cells && IsLockedCell(r[i].loc, w, h, toPixel, area, lim) &&
      r[i] == LockedAt(r[i].loc, w, h, toPixel, area)
    ensures forall p :: p in cells && IsLockedCell(p, w, h, toPixel, area, lim) ==>
      LockedAt(p, w, h, toPixel, area) in r
    decreases |cells|
  {
    if |cells| == 0 then []
    else
      var p := cells[0];
      var rest := LockedScan(cells[1..], w, h, toPixel, area, lim);
      assert forall q :: q in cells <==> q == p || q in cells[1..];
      if IsLockedCell(p, w, h, toPixel, area, lim) then [LockedAt(p, w, h, toPixel, area)] + rest
      else rest
  }

  /** The descriptors' cells come in sweep order, each once: the order of
      `Grid.RowMajorSorted`, stated on the descriptors themselves rather
      than on a derived sequence of cells, so that proofs index the
      descriptor list directly. */
  predicate InSweepOrder(r: seq<LockedBlockDesc>)
  {
    forall i, j :: 0 <= i < j < |r| ==> Before(r[i].loc, r[j].loc)
  }

  /** Scanning a sorted sweep lists the locked cells in sweep order. */
  lemma {:induction false} LockedScanSorted(cells: seq<Pos>, w: int, h: int, toPixel: ToPixel, area: Pos -> Area, lim: LockedLimits)
    requires RowMajorSorted(cells)
    ensures InSweepOrder(LockedScan(cells, w, h, toPixel, area, lim))
    decreases |cells|
  {
    if |cells| > 0 {
      SortedTail(cells);
      LockedScanSorted(cells[1..], w, h, toPixel, area, lim);
      var rest := LockedScan(cells[1..], w, h, toPixel, area, lim);
      if IsLockedCell(cells[0], w, h, toPixel, area, lim) {
        forall k | 0 <= k < |rest| ensures Before(cells[0], rest[k].loc) {
          assert rest[k].loc in cells[1..];
        }
        InSweepOrderCons(LockedAt(cells[0], w, h, toPixel, area), rest);
      }
    }
  }

  /** A descriptor whose cell comes before all of a list in sweep order can
      lead it. */
  lemma InSweepOrderCons(b: LockedBlockDesc, rest: seq<LockedBlockDesc>)
    requires InSweepOrder(rest)
    requires forall k :: 0 <= k < |rest| ==> Before(b.loc, rest[k].loc)
    ensures InSweepOrder([b] + rest)
  {
    var r := [b] + rest;
    forall i, j | 0 <= i < j < |r| ensures Before(r[i].loc, r[j].loc) {
      assert r[j] == rest[j - 1];
      if i > 0 {
        assert r[i] == rest[i - 1];
      }
    }
  }

  /** `getLockedBlocksDesc`: every locked cell of the board, each once, in
      row-major order, with its pixel corner and hue. */
  function LockedBlocks(w: nat, h: nat, toPixel: ToPixel, area: Pos -> Area, lim: LockedLimits): (r: seq<LockedBlockDesc>)
    ensures forall i :: 0 <= i < |r| ==>
      OnBoard(r[i].loc, w, h) && IsLockedCell(r[i].loc, w, h, toPixel, area, lim) &&
      r[i] == LockedAt(r[i].loc, w, h, toPixel, area)
    ensures forall p :: OnBoard(p, w, h) && IsLockedCell(p, w, h, toPixel, area, lim) ==>
      LockedAt(p, w, h, toPixel, area) in r
    ensures forall i, j :: 0 <= i < j < |r| ==> Before(r[i].loc, r[j].loc)
  {
    LockedScanSorted(RowMajor(0, w, 0, h), w, h, toPixel, area, lim);
    LockedScan(RowMajor(0, w, 0, h), w, h, toPixel, area, lim)
  }
}

=== FILE: board_size.dfy ===
/** Board geometry estimation: how many columns and rows the board has.

    Template matching finds the projection-figure markers above the board
    (they fix the height) and left of it (they fix the width). Every
    candidate dimension `d` in [2, 2 * maxExtent + 1] predicts where the
    outermost marker would sit; each match that lands within a cropped block
    length on the inner side of that prediction votes for `d` with its
    squared confidence. The dimension with the highest total wins, ties
    going to the larger dimension. The scores live in a Go map, whose
    iteration order is unspecified, so the fold is modelled over an
    arbitrary enumeration `order` of the map's keys and shown not to depend
    on it. */
module BoardSize {

  /** One template match: its centre coordinate along the axis being
      estimated, and its confidence. */
  datatype Match = Match(center: int, score: real)

  /** Calibration of one axis: the pixel coordinate of the top-left edge of
      the visual-centre block, and the extent of one block along the axis. */
  datatype AxisGeometry = AxisGeometry(centerLT: real, block: real)

  /** The matches found for one axis, and the order in which the Go map of
      scores happens to be iterated. */
  datatype AxisEvidence = AxisEvidence(matches: seq<Match>, order: seq<int>)

  /** Shift of the expected marker position, in blocks. */
  const BIAS_FACTOR: real := 0.075
  /** Width of the voting window, in blocks. */
  const CROP_FACTOR: real := 0.8

  /** Where the marker edge would be if the board had `d` blocks on this
      axis: half the board away from the centre block, plus the bias. */
  function ExpectedEdge(d: int, g: AxisGeometry): real
  {
    g.centerLT - ((d - 1) as real / 2.0) * g.block - BIAS_FACTOR * g.block
  }

  /** Match `m` lies strictly inside the window just before the expected
      edge for dimension `d`. */
  predicate Votes(m: Match, d: int, g: AxisGeometry)
  {
    var delta := ExpectedEdge(d, g) - m.center as real;
    0.0 < delta < g.block * CROP_FACTOR
  }

  /** Sum of the squared confidences of the matches voting for `d`: never
      negative, 0 when no match votes, and at least the weight of every
      single vote. */
  function DimScore(d: int, matches: seq<Match>, g: AxisGeometry): (s: real)
    ensures s >= 0.0
    ensures (forall i :: 0 <= i < |matches| ==> !Votes(matches[i], d, g)) ==> s == 0.0
    ensures forall i :: 0 <= i < |matches| && Votes(matches[i], d, g) ==> s >= Square(matches[i].score)
    decreases |matches|
  {
    if |matches| == 0 then 0.0
    else
      var last := matches[|matches| - 1];
      var prefix := DimScore(d, matches[..|matches| - 1], g);
      assert forall i :: 0 <= i < |matches| - 1 ==> matches[..|matches| - 1][i] == matches[i];
      prefix + (if Votes(last, d, g) then Square(last.score) else 0.0)
  }

  /** Votes are tallied one match at a time: the score over two runs of
      matches is the sum of their scores. */
  lemma {:induction false} DimScoreAppend(d: int, a: seq<Match>, b: seq<Match>, g: AxisGeometry)
    ensures DimScore(d, a + b, g) == DimScore(d, a, g) + DimScore(d, b, g)
    decreases |b|
  {
    if |b| == 0 {
      assert a + b == a;
    } else {
      var b' := b[..|b| - 1];
      DimScoreAppend(d, a, b', g);
      assert (a + b)[..|a + b| - 1] == a + b';
      assert (a + b)[|a + b| - 1] == b[|b| - 1];
    }
  }

  /** A single match adds its squared confidence when it votes, and
      nothing otherwise. */
  lemma DimScoreSingle(d: int, m: Match, g: AxisGeometry)
    ensures DimScore(d, [m], g) == if Votes(m, d, g) then Square(m.score) else 0.0
  {
    assert [m][..0] == [];
  }

  /** The weight of one vote: the squared confidence. */
  function Square(x: real): (r: real)
    ensures r >= 0.0
  {
    x * x
  }

  /** The integers from `lo` to `hi`, both included. */
  function Span(lo: int, hi: int): (s: set<int>)
    ensures forall d :: d in s <==> lo <= d <= hi
    decreases hi - lo
  {
    if hi < lo then {} else {lo} + Span(lo + 1, hi)
  }

  /** The candidate dimensions [2, 2 * maxExtent + 1]. */
  function Candidates(maxExtent: nat): (s: set<int>)
    ensures forall d :: d in s <==> 2 <= d <= 2 * maxExtent + 1
  {
    Span(2, 2 * maxExtent + 1)
  }

  /** The score map: one entry per candidate dimension, never negative. */
  function Scores(matches: seq<Match>, maxExtent: nat, g: AxisGeometry): (m: map<int, real>)
    ensures m.Keys == Candidates(maxExtent)
    ensures forall d :: d in m ==> m[d] == DimScore(d, matches, g) && m[d] >= 0.0
  {
    map d | d in Candidates(maxExtent) :: DimScore(d, matches, g)
  }

  /** `order` visits exactly the keys of the map (a Go range over a map
      visits each key once, in no promised order). */
  predicate IsIterationOrder(order: seq<int>, keys: set<int>)
  {
    && (forall i :: 0 <= i < |order| ==> order[i] in keys)
    && (forall d :: d in keys ==> d in order)
  }

  /** `d` wins: its score is maximal and it is the largest key among those
      with that score. */
  predicate IsWinner(d: int, scores: map<int, real>)
  {
    d in scores &&
    forall e :: e in scores ==> scores[e] < scores[d] || (scores[e] == scores[d] && e <= d)
  }

  /** The running state of the selection loop: best score so far and the
      dimension that holds it. */
  datatype Best = Best(maxS: real, dim: int)

  /** The state before the loop: below every possible score, no dimension. */
  const Start: Best := Best(-1.0, 0)

  /** One iteration of the selection loop. */
  function Visit(acc: Best, d: int, s: real): Best
  {
    if s > acc.maxS then Best(s, d)
    else if s == acc.maxS && d > acc.dim then Best(acc.maxS, d)
    else acc
  }

  /** The selection loop over `order`. */
  function FoldBest(acc: Best, scores: map<int, real>, order: seq<int>): Best
    requires forall i :: 0 <= i < |order| ==> order[i] in scores
    decreases |order|
  {
    if |order| == 0 then acc
    else FoldBest(Visit(acc, order[0], scores[order[0]]), scores, order[1..])
  }

  /** `acc` is what the loop holds after visiting the keys in `seen`: the
      start state if none, otherwise the winner among them with its score. */
  ghost predicate Summarizes(acc: Best, scores: map<int, real>, seen: set<int>)
    requires seen <= scores.Keys
  {
    if seen == {} then acc == Start
    else
      && acc.dim in seen
      && acc.maxS == scores[acc.dim]
      && forall e :: e in seen ==> scores[e] < acc.maxS || (scores[e] == acc.maxS && e <= acc.dim)
  }

  lemma VisitSummarizes(acc: Best, scores: map<int, real>, seen: set<int>, d: int)
    requires seen <= scores.Keys && d in scores
    requires forall k :: k in scores ==> scores[k] > -1.0
    requires Summarizes(acc, scores, seen)
    ensures Summarizes(Visit(acc, d, scores[d]), scores, seen + {d})
  {
  }

  lemma {:induction false} FoldSummarizes(acc: Best, scores: map<int, real>, order: seq<int>, seen: set<int>)
    requires seen <= scores.Keys
    requires forall i :: 0 <= i < |order| ==> order[i] in scores
    requires forall k :: k in scores ==> scores[k] > -1.0
    requires Summarizes(acc, scores, seen)
    ensures Summarizes(FoldBest(acc, scores, order), scores, seen + (set d | d in order))
    decreases |order|
  {
    if |order| == 0 {
      assert (set d | d in order) == {};
      assert seen + (set d | d in order) == seen;
    } else {
      var d := order[0];
      VisitSummarizes(acc, scores, seen, d);
      FoldSummarizes(Visit(acc, d, scores[d]), scores, order[1..], seen + {d});
      assert seen + {d} + (set e | e in order[1..]) == seen + (set e | e in order) by {
        forall e | e in order ensures e == d || e in order[1..] {
          var i :| 0 <= i < |order| && order[i] == e;
          if i > 0 { assert order[1..][i - 1] == e; }
        }
      }
    }
  }

  /** The Go selection loop: with no keys it leaves the dimension at 0,
      otherwise it ends on the winner, whatever the iteration order. */
  function PickBest(scores: map<int, real>, order: seq<int>): (r: int)
    requires IsIterationOrder(order, scores.Keys)
    requires forall d :: d in scores ==> scores[d] > -1.0
    ensures scores.Keys == {} ==> r == 0
    ensures scores.Keys != {} ==> IsWinner(r, scores)
  {
    var final := FoldBest(Start, scores, order);
    FoldSummarizes(Start, scores, order, {});
    assert forall d :: d in {} + (set e | e in order) <==> d in scores.Keys;
    assert {} + (set e | e in order) == scores.Keys;
    final.dim
  }

  /** At most one key wins. */
  lemma {:induction false} WinnerUnique(scores: map<int, real>, a: int, b: int)
    requires IsWinner(a, scores) && IsWinner(b, scores)
    ensures a == b
  {
    assert scores[a] < scores[b] || (scores[a] == scores[b] && a <= b);
    assert scores[b] < scores[a] || (scores[b] == scores[a] && b <= a);
  }

  /** The map's iteration order does not affect the chosen dimension. */
  lemma {:induction false} PickBestOrderIndependent(scores: map<int, real>, o1: seq<int>, o2: seq<int>)
    requires IsIterationOrder(o1, scores.Keys) && IsIterationOrder(o2, scores.Keys)
    requires forall d :: d in scores ==> scores[d] > -1.0
    ensures PickBest(scores, o1) == PickBest(scores, o2)
  {
    if scores.Keys != {} {
      WinnerUnique(scores, PickBest(scores, o1), PickBest(scores, o2));
    }
  }

  /** One axis of `getPossibleBoardSize`: 0 when template matching found
      nothing (or the candidate range is empty), otherwise the winning
      candidate dimension. */
  function EstimateDim(matches: seq<Match>, maxExtent: nat, g: AxisGeometry, order: seq<int>): (r: int)
    requires IsIterationOrder(order, Candidates(maxExtent))
    ensures r == 0 <==> |matches| == 0 || maxExtent == 0
    ensures r != 0 ==> 2 <= r <= 2 * maxExtent + 1 && IsWinner(r, Scores(matches, maxExtent, g))
  {
    if |matches| == 0 then 0
    else
      var scores := Scores(matches, maxExtent, g);
      assert maxExtent > 0 ==> 2 in scores.Keys;
      PickBest(scores, order)
  }

  /** With matches present but every candidate scoring 0, the tie-break
      returns the largest candidate. */
  lemma ZeroScoresPicksLargest(matches: seq<Match>, maxExtent: nat, g: AxisGeometry, order: seq<int>)
    requires IsIterationOrder(order, Candidates(maxExtent))
    requires |matches| > 0 && maxExtent > 0
    requires forall d :: 2 <= d <= 2 * maxExtent + 1 ==> DimScore(d, matches, g) == 0.0
    ensures EstimateDim(matches, maxExtent, g, order) == 2 * maxExtent + 1
  {
    var scores := Scores(matches, maxExtent, g);
    assert 2 * maxExtent + 1 in scores;
  }

  /** In particular when no match votes for any candidate. */
  lemma NoVotesPicksLargest(matches: seq<Match>, maxExtent: nat, g: AxisGeometry, order: seq<int>)
    requires IsIterationOrder(order, Candidates(maxExtent))
    requires |matches| > 0 && maxExtent > 0
    requires forall i, d :: 0 <= i < |matches| && 2 <= d <= 2 * maxExtent + 1 ==> !Votes(matches[i], d, g)
    ensures EstimateDim(matches, maxExtent, g, order) == 2 * maxExtent + 1
  {
    ZeroScoresPicksLargest(matches, maxExtent, g, order);
  }

  /** `getPossibleBoardSize`: the width comes from the figures left of the
      board, the height from the figures above it. */
  function EstimateSize(xFigures: AxisEvidence, yFigures: AxisEvidence, maxExtent: nat,
                        geomX: AxisGeometry, geomY: AxisGeometry): (size: (int, int))
    requires IsIterationOrder(yFigures.order, Candidates(maxExtent))
    requires IsIterationOrder(xFigures.order, Candidates(maxExtent))
    ensures size.0 == 0 <==> |yFigures.matches| == 0 || maxExtent == 0
    ensures size.1 == 0 <==> |xFigures.matches| == 0 || maxExtent == 0
    ensures size.0 == 0 || 2 <= size.0 <= 2 * maxExtent + 1
    ensures size.1 == 0 || 2 <= size.1 <= 2 * maxExtent + 1
    ensures size.0 != 0 ==> IsWinner(size.0, Scores(yFigures.matches, maxExtent, geomX))
    ensures size.1 != 0 ==> IsWinner(size.1, Scores(xFigures.matches, maxExtent, geomY))
  {
    (EstimateDim(yFigures.matches, maxExtent, geomX, yFigures.order),
     EstimateDim(xFigures.matches, maxExtent, geomY, xFigures.order))
  }
}

=== FILE: color.dfy ===
/** What the colour sampler hands back to the recognizer.

    The sampler itself (point and area HSV, variance, median) works on
    pixels and is not part of this model; its answers are inputs. */
module Color {

  /** A colour in hue / saturation / value form. */
  datatype Hsv = Hsv(h: real, s: real, v: real)

  /** What the recognizer reads from one block-sized rectangle: its colour
      variance, its mean colour and its median colour. */
  datatype Area = Area(variance: real, mean: Hsv, mid: Hsv)
}

=== FILE: grid.dfy ===
/** Integer positions and the row-major sweeps the recognizer performs.

    Three loops of the recognizer visit a rectangle of integer positions
    with the vertical coordinate in the outer loop and the horizontal one in
    the inner loop: the thumbnail strip (row, column), the preview square of
    a puzzle piece (offsetY, offsetX) and the board (gridY, gridX). All three
    are `RowMajor` here. */
module Grid {

  /** A pair of integer coordinates: a pixel, a grid cell or an offset. */
  datatype Pos = Pos(x: int, y: int)

  /** `a` is visited before `b` by a sweep with `y` in the outer loop. */
  predicate Before(a: Pos, b: Pos)
  {
    a.y < b.y || (a.y == b.y && a.x < b.x)
  }

  /** `p` lies in the half-open box [x0, x1) x [y0, y1). */
  predicate InBox(p: Pos, x0: int, x1: int, y0: int, y1: int)
  {
    x0 <= p.x < x1 && y0 <= p.y < y1
  }

  /** Every earlier element is visited before every later one; in
      particular no position occurs twice. */
  predicate RowMajorSorted(s: seq<Pos>)
  {
    forall i, j :: 0 <= i < j < |s| ==> Before(s[i], s[j])
  }

  /** The positions of row `y` from `x0` up to, not including, `x1`. */
  function Row(y: int, x0: int, x1: int): (s: seq<Pos>)
    ensures forall p :: p in s <==> InBox(p, x0, x1, y, y + 1)
    ensures RowMajorSorted(s)
    ensures |s| == if x0 < x1 then x1 - x0 else 0
    ensures forall i :: 0 <= i < |s| ==> s[i] == Pos(x0 + i, y)
    decreases x1 - x0
  {
    if x1 <= x0 then [] else [Pos(x0, y)] + Row(y, x0 + 1, x1)
  }

  /** The sweep over [x0, x1) x [y0, y1): rows from top to bottom, each
      row from left to right. */
  function RowMajor(x0: int, x1: int, y0: int, y1: int): (s: seq<Pos>)
    ensures forall p :: p in s <==> InBox(p, x0, x1, y0, y1)
    ensures RowMajorSorted(s)
    ensures |s| == if x0 < x1 && y0 < y1 then (x1 - x0) * (y1 - y0) else 0
    ensures forall i :: 0 <= i < |s| ==> y0 <= s[i].y
    decreases y1 - y0
  {
    if y1 <= y0 then []
    else
      var first := Row(y0, x0, x1);
      var rest := RowMajor(x0, x1, y0 + 1, y1);
      assert forall i :: 0 <= i < |rest| ==> y0 < rest[i].y;
      first + rest
  }

  /** In a sorted sweep, visiting order and position order agree. */
  lemma SortedIndexOrder(s: seq<Pos>, i: int, j: int)
    requires RowMajorSorted(s)
    requires 0 <= i < |s| && 0 <= j < |s|
    requires Before(s[i], s[j])
    ensures i < j
  {
  }

  /** Dropping the first position of a sorted sweep leaves a sorted sweep
      whose positions all come after the dropped one. */
  lemma SortedTail(s: seq<Pos>)
    requires RowMajorSorted(s) && |s| > 0
    ensures RowMajorSorted(s[1..])
    ensures forall q :: q in s[1..] ==> Before(s[0], q)
  {
    forall q | q in s[1..] ensures Before(s[0], q) {
      var k :| 0 <= k < |s[1..]| && s[1..][k] == q;
      assert s[k + 1] == q;
    }
  }

  /** A position visited before everything of a sorted sweep can lead it. */
  lemma SortedCons(p: Pos, rest: seq<Pos>)
    requires RowMajorSorted(rest)
    requires forall q :: q in rest ==> Before(p, q)
    ensures RowMajorSorted([p] + rest)
  {
    forall i, j | 0 <= i < j < |[p] + rest| ensures Before(([p] + rest)[i], ([p] + rest)[j]) {
      assert ([p] + rest)[j] == rest[j - 1];
      if i > 0 {
        assert ([p] + rest)[i] == rest[i - 1];
      } else {
        assert rest[j - 1] in rest;
      }
    }
  }
}

=== FILE: hue_partition.dfy ===
/** Hue disambiguation and the sharing of locked blocks between hues.

    The hues of the extracted pieces are clustered into colour families and
    each family is represented by its mean; the clustering, the hue mean and
    the circular hue distance are not part of this model and are
    parameters. For every family, in order, the recognizer claims from a
    shared pool of locked blocks those whose hue is within tolerance,
    removing them from the pool so that no later family sees them again. So
    a locked block ends up with the first family it is near, or with none. */
module HuePartition {
  import opened Optional
  import opened Grid
  import opened Blocks
  import opened PuzzleShape

  /** Circular distance between two hues. */
  type HueDiff = (int, int) -> int
  /** Groups of hues that belong together, given a tolerance. */
  type Clusterer = (seq<int>, int) -> seq<seq<int>>
  /** The representative hue of a group. */
  type HueMean = seq<int> -> int

  /** The hues of the pieces, in piece order. */
  function PieceHues(puzzles: seq<PuzzleDesc>): (r: seq<int>)
    ensures |r| == |puzzles|
    ensures forall i :: 0 <= i < |puzzles| ==> r[i] == puzzles[i].hue
  {
    seq(|puzzles|, i requires 0 <= i < |puzzles| => puzzles[i].hue)
  }

  /** The representatives of the nonempty clusters, in cluster order. */
  function Representatives(clusters: seq<seq<int>>, meanHue: HueMean): (r: seq<int>)
    ensures |r| <= |clusters|
    ensures forall c :: c in clusters && |c| > 0 ==> meanHue(c) in r
    ensures forall i :: 0 <= i < |r| ==> exists c :: c in clusters && |c| > 0 && meanHue(c) == r[i]
    decreases |clusters|
  {
    if |clusters| == 0 then []
    else
      var rest := Representatives(clusters[1..], meanHue);
      assert forall c :: c in clusters <==> c == clusters[0] || c in clusters[1..];
      if |clusters[0]| == 0 then rest else [meanHue(clusters[0])] + rest
  }

  /** When no cluster is empty, the representatives are the clusters'
      means, one per cluster, in cluster order. */
  lemma {:induction false} RepresentativesInOrder(clusters: seq<seq<int>>, meanHue: HueMean)
    ensures var r := Representatives(clusters, meanHue);
      (forall j :: 0 <= j < |clusters| ==> |clusters[j]| > 0) ==>
        |r| == |clusters| && forall j :: 0 <= j < |clusters| ==> r[j] == meanHue(clusters[j])
    decreases |clusters|
  {
    if |clusters| > 0 && forall j :: 0 <= j < |clusters| ==> |clusters[j]| > 0 {
      var tail := clusters[1..];
      var rest := Representatives(tail, meanHue);
      var r := Representatives(clusters, meanHue);
      assert |rest| == |tail| && forall j :: 0 <= j < |tail| ==> rest[j] == meanHue(clusters[j + 1]) by {
        assert forall j :: 0 <= j < |tail| ==> tail[j] == clusters[j + 1];
        RepresentativesInOrder(tail, meanHue);
      }
      assert r == [meanHue(clusters[0])] + rest;
      MeansCons(clusters, rest, meanHue);
    }
  }

  /** The mean of the first cluster in front of the means of the others
      gives the means of all clusters, in order. */
  lemma MeansCons(clusters: seq<seq<int>>, rest: seq<int>, meanHue: HueMean)
    requires |clusters| > 0 && |rest| == |clusters| - 1
    requires forall j :: 0 <= j < |rest| ==> rest[j] == meanHue(clusters[j + 1])
    ensures |[meanHue(clusters[0])] + rest| == |clusters|
    ensures forall j :: 0 <= j < |clusters| ==> ([meanHue(clusters[0])] + rest)[j] == meanHue(clusters[j])
  {
    var r := [meanHue(clusters[0])] + rest;
    forall j | 0 <= j < |clusters| ensures r[j] == meanHue(clusters[j]) {
      if j > 0 {
        assert r[j] == rest[j - 1];
      }
    }
  }

  /** Clusters are handled one at a time, in order: the representatives of
      a concatenation are the concatenated representatives. */
  lemma {:induction false} RepresentativesAppend(c1: seq<seq<int>>, c2: seq<seq<int>>, meanHue: HueMean)
    ensures Representatives(c1 + c2, meanHue) == Representatives(c1, meanHue) + Representatives(c2, meanHue)
    decreases |c1|
  {
    if |c1| == 0 {
      assert c1 + c2 == c2;
    } else {
      assert (c1 + c2)[0] == c1[0];
      assert (c1 + c2)[1..] == c1[1..] + c2;
      RepresentativesAppend(c1[1..], c2, meanHue);
    }
  }

  /** A single cluster contributes its mean when nonempty, nothing when
      empty. */
  lemma RepresentativesSingle(c: seq<int>, meanHue: HueMean)
    ensures Representatives([c], meanHue) == if |c| > 0 then [meanHue(c)] else []
  {
    assert [c][1..] == [];
  }

  /** `getPossibleHues`: one hue per nonempty cluster of the pieces' hues. */
  function PossibleHues(puzzles: seq<PuzzleDesc>, cluster: Clusterer, meanHue: HueMean, tol: int): (r: seq<int>)
    ensures var clusters := cluster(PieceHues(puzzles), tol);
      && |r| <= |clusters|
      && (forall c :: c in clusters && |c| > 0 ==> meanHue(c) in r)
      && (forall i :: 0 <= i < |r| ==> exists c :: c in clusters && |c| > 0 && meanHue(c) == r[i])
      && ((forall j :: 0 <= j < |clusters| ==> |clusters[j]| > 0) ==>
            |r| == |clusters| && forall j :: 0 <= j < |clusters| ==> r[j] == meanHue(clusters[j]))
  {
    RepresentativesInOrder(cluster(PieceHues(puzzles), tol), meanHue);
    Representatives(cluster(PieceHues(puzzles), tol), meanHue)
  }

  /** The pool of locked blocks; a claimed block leaves a hole. */
  type Pool = seq<Option<LockedBlockDesc>>

  /** A block is near a hue when their distance is within tolerance. */
  predicate Near(b: LockedBlockDesc, hue: int, diffHue: HueDiff, tol: int)
  {
    diffHue(b.hue, hue) <= tol
  }

  /** The number of blocks still in the pool. */
  function Present(pool: Pool): nat
    decreases |pool|
  {
    if |pool| == 0 then 0 else (if pool[0].Some? then 1 else 0) + Present(pool[1..])
  }

  /** One family's claim: the blocks of the pool near `hue`, in pool order,
      and the pool with their places emptied. No block is lost or
      duplicated: claimed plus remaining equals what was there. */
  function Claim(pool: Pool, hue: int, diffHue: HueDiff, tol: int): (c: (seq<LockedBlockDesc>, Pool))
    ensures |c.1| == |pool|
    ensures |c.0| + Present(c.1) == Present(pool)
    ensures forall b :: b in c.0 ==> Some(b) in pool && Near(b, hue, diffHue, tol)
    ensures forall i :: 0 <= i < |pool| && pool[i].Some? && Near(pool[i].value, hue, diffHue, tol) ==>
      pool[i].value in c.0
    ensures forall i :: 0 <= i < |pool| ==>
      c.1[i] == if pool[i].Some? && Near(pool[i].value, hue, diffHue, tol) then None else pool[i]
    decreases |pool|
  {
    if |pool| == 0 then ([], [])
    else
      var tail := Claim(pool[1..], hue, diffHue, tol);
      assert forall o :: o in pool[1..] ==> o in pool;
      match pool[0]
      case Some(lb) =>
        if Near(lb, hue, diffHue, tol) then ([lb] + tail.0, [None] + tail.1)
        else (tail.0, [pool[0]] + tail.1)
      case None => (tail.0, [None] + tail.1)
  }

  /** The per-hue loop from family `k` on, starting from `pool`. */
  function ClaimFrom(pool: Pool, hues: seq<int>, k: nat, diffHue: HueDiff, tol: int): (groups: seq<seq<LockedBlockDesc>>)
    requires k <= |hues|
    ensures |groups| == |hues| - k
    decreases |hues| - k
  {
    if k == |hues| then []
    else
      var c := Claim(pool, hues[k], diffHue, tol);
      [c.0] + ClaimFrom(c.1, hues, k + 1, diffHue, tol)
  }

  /** The full pool before any family has claimed. */
  function FullPool(locked: seq<LockedBlockDesc>): (pool: Pool)
    ensures |pool| == |locked| && Present(pool) == |locked|
    ensures forall i :: 0 <= i < |locked| ==> pool[i] == Some(locked[i])
    decreases |locked|
  {
    if |locked| == 0 then [] else [Some(locked[0])] + FullPool(locked[1..])
  }

  /** `b` is near none of the first `k` families. */
  ghost predicate Unclaimed(b: LockedBlockDesc, hues: seq<int>, k: nat, diffHue: HueDiff, tol: int)
    requires k <= |hues|
  {
    forall m :: 0 <= m < k ==> !Near(b, hues[m], diffHue, tol)
  }

  /** `b` belongs to family `k`: the first family it is near. */
  ghost predicate OwnedBy(b: LockedBlockDesc, hues: seq<int>, k: nat, diffHue: HueDiff, tol: int)
    requires k < |hues|
  {
    Unclaimed(b, hues, k, diffHue, tol) && Near(b, hues[k], diffHue, tol)
  }

  /** The pool as it stands after the first `k` families have claimed. */
  ghost function PoolAt(locked: seq<LockedBlockDesc>, hues: seq<int>, k: nat, diffHue: HueDiff, tol: int): (pool: Pool)
    requires k <= |hues|
    ensures |pool| == |locked|
    decreases |locked|
  {
    if |locked| == 0 then []
    else [if Unclaimed(locked[0], hues, k, diffHue, tol) then Some(locked[0]) else None] +
         PoolAt(locked[1..], hues, k, diffHue, tol)
  }

  /** The locked blocks owned by family `k`, in scan order. */
  ghost function Owned(locked: seq<LockedBlockDesc>, hues: seq<int>, k: nat, diffHue: HueDiff, tol: int): (r: seq<LockedBlockDesc>)
    requires k < |hues|
    ensures forall b :: b in r <==> b in locked && OwnedBy(b, hues, k, diffHue, tol)
    decreases |locked|
  {
    if |locked| == 0 then []
    else
      var rest := Owned(locked[1..], hues, k, diffHue, tol);
      assert forall b :: b in locked <==> b == locked[0] || b in locked[1..];
      if OwnedBy(locked[0], hues, k, diffHue, tol) then [locked[0]] + rest else rest
  }

  /** A family's blocks keep the order of the locked-block list: the loop
      appends them as it walks the pool. */
  lemma {:induction false} OwnedSorted(locked: seq<LockedBlockDesc>, hues: seq<int>, k: nat, diffHue: HueDiff, tol: int)
    requires k < |hues|
    requires InSweepOrder(locked)
    ensures InSweepOrder(Owned(locked, hues, k, diffHue, tol))
    decreases |locked|
  {
    if |locked| > 0 {
      var tail := locked[1..];
      assert forall i :: 0 <= i < |tail| ==> tail[i] == locked[i + 1];
      OwnedSorted(tail, hues, k, diffHue, tol);
      var rest := Owned(tail, hues, k, diffHue, tol);
      if OwnedBy(locked[0], hues, k, diffHue, tol) {
        forall i | 0 <= i < |rest| ensures Before(locked[0].loc, rest[i].loc) {
          assert rest[i] in tail;
        }
        InSweepOrderCons(locked[0], rest);
      }
    }
  }

  /** Family `k` claims from the pool left by the families before it
      exactly the blocks it owns, and leaves the pool of the next family. */
  lemma {:induction false} ClaimStep(locked: seq<LockedBlockDesc>, hues: seq<int>, k: nat, diffHue: HueDiff, tol: int)
    requires k < |hues|
    ensures Claim(PoolAt(locked, hues, k, diffHue, tol), hues[k], diffHue, tol) ==
      (Owned(locked, hues, k, diffHue, tol), PoolAt(locked, hues, k + 1, diffHue, tol))
    decreases |locked|
  {
    if |locked| > 0 {
      var pool := PoolAt(locked, hues, k, diffHue, tol);
      assert pool[1..] == PoolAt(locked[1..], hues, k, diffHue, tol);
      ClaimStep(locked[1..], hues, k, diffHue, tol);
      var b := locked[0];
      assert Unclaimed(b, hues, k + 1, diffHue, tol) <==>
        Unclaimed(b, hues, k, diffHue, tol) && !Near(b, hues[k], diffHue, tol);
    }
  }

  /** The per-hue loop, from family `k` on, hands every family its owned
      blocks. */
  lemma {:induction false} ClaimFromOwned(locked: seq<LockedBlockDesc>, hues: seq<int>, k: nat, diffHue: HueDiff, tol: int)
    requires k <= |hues|
    ensures var groups := ClaimFrom(PoolAt(locked, hues, k, diffHue, tol), hues, k, diffHue, tol);
      forall j :: k <= j < |hues| ==> groups[j - k] == Owned(locked, hues, j, diffHue, tol)
    decreases |hues| - k
  {
    if k < |hues| {
      ClaimStep(locked, hues, k, diffHue, tol);
      ClaimFromOwned(locked, hues, k + 1, diffHue, tol);
    }
  }

  lemma {:induction false} FullPoolIsPoolAtStart(locked: seq<LockedBlockDesc>, hues: seq<int>, diffHue: HueDiff, tol: int)
    ensures FullPool(locked) == PoolAt(locked, hues, 0, diffHue, tol)
    decreases |locked|
  {
    if |locked| > 0 {
      FullPoolIsPoolAtStart(locked[1..], hues, diffHue, tol);
    }
  }

  /** The per-hue partition of `Run`: one group per family, in family
      order. A block is in group `j` exactly when family `j` is the first
      family it is near, so every member is near its family's hue and no
      block is in two groups; each group keeps the scan order of the locked
      blocks. */
  function LockedGroups(locked: seq<LockedBlockDesc>, hues: seq<int>, diffHue: HueDiff, tol: int): (groups: seq<seq<LockedBlockDesc>>)
    ensures |groups| == |hues|
    ensures forall j :: 0 <= j < |hues| ==> groups[j] == Owned(locked, hues, j, diffHue, tol)
    ensures forall j, b :: 0 <= j < |hues| && b in groups[j] ==>
      b in locked && Near(b, hues[j], diffHue, tol) && forall m :: 0 <= m < j ==> !Near(b, hues[m], diffHue, tol)
    ensures forall j, b ::
      (0 <= j < |hues| && b in locked && Near(b, hues[j], diffHue, tol) &&
       forall m :: 0 <= m < j ==> !Near(b, hues[m], diffHue, tol)) ==> b in groups[j]
    ensures forall j, k, b :: 0 <= j < |hues| && 0 <= k < |hues| && b in groups[j] && b in groups[k] ==> j == k
  {
    FullPoolIsPoolAtStart(locked, hues, diffHue, tol);
    ClaimFromOwned(locked, hues, 0, diffHue, tol);
    ClaimFrom(FullPool(locked), hues, 0, diffHue, tol)
  }
}

=== FILE: numeric.dfy ===
/** Go's float-to-integer conversions, written out over exact reals.

    The recognition pipeline computes with float64 and converts back to
    integers in two ways: the conversion `int(x)`, which truncates toward
    zero, and `math.Round`, which rounds to the nearest integer with halves
    rounded away from zero. Dafny's `.Floor` rounds toward negative
    infinity, so both are spelled out here. */
module Numeric {

  /** `int(x)` in Go: drop the fractional part, toward zero. */
  function Trunc(x: real): (r: int)
    ensures 0.0 <= x ==> r as real <= x < r as real + 1.0
    ensures x < 0.0 ==> r as real - 1.0 < x <= r as real
    ensures 0.0 <= x ==> r >= 0
  {
    if x >= 0.0 then x.Floor else -((-x).Floor)
  }

  /** `math.Round(x)` in Go: the nearest integer; an exact half goes away
      from zero. The last two clauses pin down the tie-breaking. */
  function Round(x: real): (r: int)
    ensures x - 0.5 <= r as real <= x + 0.5
    ensures r as real == x + 0.5 ==> x > 0.0
    ensures r as real == x - 0.5 ==> x < 0.0
  {
    if x >= 0.0 then (x + 0.5).Floor else -((-x + 0.5).Floor)
  }

  /** Rounding never reverses the order of two values. */
  lemma RoundMonotone(x: real, y: real)
    requires x <= y
    ensures Round(x) <= Round(y)
  {
  }

  /** An integer rounds to itself. */
  lemma RoundOfInteger(k: int)
    ensures Round(k as real) == k
  {
  }

  /** A mean lies within the bounds of the values it averages. */
  lemma MeanBounds(sum: real, n: nat, lo: real, hi: real)
    requires n > 0
    requires n as real * lo <= sum < n as real * hi
    ensures lo <= sum / n as real < hi
  {
  }
}

=== FILE: optional.dfy ===
/** An optional value, standing in for the nil pointers the recognizer
    returns when it has nothing to report. */
module Optional {

  datatype Option<+T> = None | Some(value: T)
}

=== FILE: projection.dfy ===
/** Projection decoding: reading the number printed beside each row and
    column of the board for one hue.

    A projection figure is a bar of fixed-pitch marks, not a digit. The
    recognizer scans the figure's rectangle one pixel line at a time from
    the edge next to the board outward; a line is marked when one of three
    samples across it is saturated and bright enough (the sampler has
    already discarded colours far from the target hue). The extent is the
    furthest marked line, gaps included, and is turned into a count by
    undoing the known initial offset and pitch of the marks. */
module Projection {
  import opened Numeric
  import opened Color

  /** Calibration constants of the projection figures. */
  datatype Calibration = Calibration(satGrt: real, valGrt: real, initGap: real, eachGap: real)

  /** The samples of one figure: one entry per scan line, innermost first,
      each holding the samples taken across that line. */
  type Figure = seq<seq<Hsv>>

  /** For one hue, the samples of the figure above each column and of the
      figure left of each row, by grid index. */
  datatype FigureSamples = FigureSamples(top: nat -> Figure, left: nat -> Figure)

  /** `ProjDesc`: the decoded number of every column and of every row. */
  datatype ProjDesc = ProjDesc(xProjList: seq<int>, yProjList: seq<int>)

  /** A scan line is marked when some sample on it passes both thresholds. */
  predicate LineMarked(samples: seq<Hsv>, c: Calibration)
  {
    exists i :: 0 <= i < |samples| && samples[i].s > c.satGrt && samples[i].v > c.valGrt
  }

  /** The marked flags of a figure's scan lines. */
  function Marks(fig: Figure, c: Calibration): (m: seq<bool>)
    ensures |m| == |fig|
    ensures forall i :: 0 <= i < |fig| ==> m[i] == LineMarked(fig[i], c)
  {
    seq(|fig|, i requires 0 <= i < |fig| => LineMarked(fig[i], c))
  }

  /** The scan loop from line `i` on, `maxOffset` being what it has
      recorded so far: every marked line moves `maxOffset` to just past
      itself. */
  function ScanFrom(marked: seq<bool>, i: nat, maxOffset: nat): (r: nat)
    requires i <= |marked| && maxOffset <= i
    requires maxOffset == 0 || marked[maxOffset - 1]
    requires forall j :: maxOffset <= j < i ==> !marked[j]
    ensures maxOffset <= r <= |marked|
    ensures r == 0 || marked[r - 1]
    ensures forall j :: r <= j < |marked| ==> !marked[j]
    decreases |marked| - i
  {
    if i == |marked| then maxOffset
    else ScanFrom(marked, i + 1, if marked[i] then i + 1 else maxOffset)
  }

  /** The extent of a figure: one past the last marked line, 0 when no line
      is marked. A gap does not end the scan: every marked line lies below
      the extent. */
  function Extent(marked: seq<bool>): (r: nat)
    ensures r <= |marked|
    ensures r == 0 <==> forall j :: 0 <= j < |marked| ==> !marked[j]
    ensures r > 0 ==> marked[r - 1]
    ensures forall j :: 0 <= j < |marked| && marked[j] ==> j < r
  {
    ScanFrom(marked, 0, 0)
  }

  /** Marking more lines never lowers the extent. */
  lemma ExtentMonotone(m1: seq<bool>, m2: seq<bool>)
    requires |m1| == |m2|
    requires forall j :: 0 <= j < |m1| && m1[j] ==> m2[j]
    ensures Extent(m1) <= Extent(m2)
  {
  }

  /** Unmarked lines past the end of a scan change nothing; marked ones can
      only raise the extent. */
  lemma ExtentExtend(m: seq<bool>, more: seq<bool>)
    ensures Extent(m) <= Extent(m + more)
    ensures (forall j :: 0 <= j < |more| ==> !more[j]) ==> Extent(m + more) == Extent(m)
  {
    var e := Extent(m + more);
    assert forall j :: 0 <= j < |m| ==> (m + more)[j] == m[j];
    if Extent(m) > 0 {
      assert (m + more)[Extent(m) - 1];
    }
  }

  /** The ratio the figure's extent stands for, before rounding. */
  function Ratio(maxOffset: nat, c: Calibration): real
    requires c.eachGap > 0.0
  {
    (maxOffset as real - c.initGap) / c.eachGap
  }

  /** The number an extent decodes to: the ratio rounded half away from
      zero, negative results raised to 0. It is 0 exactly when the ratio is
      below one half, and otherwise the nearest integer to the ratio, an
      exact half going up. */
  function Decode(maxOffset: nat, c: Calibration): (r: int)
    requires c.eachGap > 0.0
    ensures r >= 0
    ensures r == 0 <==> Ratio(maxOffset, c) < 0.5
    ensures r > 0 ==> Ratio(maxOffset, c) - 0.5 < r as real <= Ratio(maxOffset, c) + 0.5
  {
    var k := Round(Ratio(maxOffset, c));
    if k < 0 then 0 else k
  }

  /** A longer extent never decodes to a smaller number. */
  lemma DecodeMonotone(a: nat, b: nat, c: Calibration)
    requires c.eachGap > 0.0
    requires a <= b
    ensures Decode(a, c) <= Decode(b, c)
  {
    DivideMonotone(a as real - c.initGap, b as real - c.initGap, c.eachGap);
    RoundMonotone(Ratio(a, c), Ratio(b, c));
  }

  lemma DivideMonotone(x: real, y: real, d: real)
    requires d > 0.0 && x <= y
    ensures x / d <= y / d
  {
    assert y / d - x / d == (y - x) / d;
  }

  /** The extent of exactly `k` marks decodes to `k`. */
  lemma DecodeExact(k: nat, maxOffset: nat, c: Calibration)
    requires c.eachGap > 0.0
    requires maxOffset as real == c.initGap + k as real * c.eachGap
    ensures Decode(maxOffset, c) == k
  {
    assert Ratio(maxOffset, c) == k as real;
    RoundOfInteger(k);
  }

  /** An extent whose ratio lies exactly halfway between `k` and `k + 1`
      decodes to `k + 1`. */
  lemma DecodeHalfUp(k: nat, maxOffset: nat, c: Calibration)
    requires c.eachGap > 0.0
    requires Ratio(maxOffset, c) == k as real + 0.5
    ensures Decode(maxOffset, c) == k + 1
  {
  }

  /** `getProjFigureNumber`: decode the figure from its samples. */
  function FigureNumber(fig: Figure, c: Calibration): (r: int)
    requires c.eachGap > 0.0
    ensures r >= 0
    ensures r == 0 <==> Ratio(Extent(Marks(fig, c)), c) < 0.5
    ensures r > 0 ==>
      Ratio(Extent(Marks(fig, c)), c) - 0.5 < r as real <= Ratio(Extent(Marks(fig, c)), c) + 0.5
  {
    Decode(Extent(Marks(fig, c)), c)
  }

  /** A figure whose marked lines include another's decodes to at least as
      much. */
  lemma FigureNumberMonotone(f1: Figure, f2: Figure, c: Calibration)
    requires c.eachGap > 0.0
    requires |f1| == |f2|
    requires forall j :: 0 <= j < |f1| && LineMarked(f1[j], c) ==> LineMarked(f2[j], c)
    ensures FigureNumber(f1, c) <= FigureNumber(f2, c)
  {
    ExtentMonotone(Marks(f1, c), Marks(f2, c));
    DecodeMonotone(Extent(Marks(f1, c)), Extent(Marks(f2, c)), c);
  }

  /** `getProjDesc`: one number per column of a `w` by `h` board, then one
      per row, none of them negative. */
  function GetProjDesc(w: nat, h: nat, samples: FigureSamples, c: Calibration): (r: ProjDesc)
    requires c.eachGap > 0.0
    ensures |r.xProjList| == w && |r.yProjList| == h
    ensures forall i :: 0 <= i < w ==> r.xProjList[i] == FigureNumber(samples.top(i), c)
    ensures forall i :: 0 <= i < h ==> r.yProjList[i] == FigureNumber(samples.left(i), c)
    ensures forall i :: 0 <= i < w ==> r.xProjList[i] >= 0
    ensures forall i :: 0 <= i < h ==> r.yProjList[i] >= 0
  {
    ProjDesc(seq(w, i requires 0 <= i < w => FigureNumber(samples.top(i), c)),
             seq(h, i requires 0 <= i < h => FigureNumber(samples.left(i), c)))
  }
}

=== FILE: puzzle_shape.dfy ===
/** Puzzle extraction: the shape and hue of every piece in the strip.

    Each discovered thumbnail is dragged to a fixed preview anchor and the
    preview is captured. The piece's shape is read by sampling a square of
    block-sized areas, offsets [-maxExtent, maxExtent] on both axes around
    the anchor, offsetY in the outer loop: an offset belongs to the piece
    when its area is varied, saturated and bright enough. The piece's hue is
    the mean of the median hues of its blocks, truncated to an integer. The
    drag, the capture and the stabilization wait are device I/O; their
    results are inputs here. */
module PuzzleShape {
  import opened Numeric
  import opened Grid
  import opened Color
  import opened Optional

  /** `PuzzleDesc`: block offsets relative to the anchor block, and hue. */
  datatype PuzzleDesc = PuzzleDesc(blocks: seq<Pos>, hue: int)

  /** The thresholds a preview area must exceed to count as a block. */
  datatype BlockLimits = BlockLimits(varGrt: real, satGrt: real, valGrt: real)

  /** What happened when one thumbnail was previewed: the stabilization
      wait failed, the screenshot failed, or the preview areas were read
      (by offset from the anchor). */
  datatype Preview = StabilizeFailed | CaptureFailed | Captured(sample: Pos -> Area)

  predicate IsBlock(a: Area, lim: BlockLimits)
  {
    a.variance > lim.varGrt && a.mean.s > lim.satGrt && a.mean.v > lim.valGrt
  }

  /** The offsets the preview square holds. */
  function Offsets(maxExtent: nat): (s: seq<Pos>)
    ensures forall p :: p in s <==> InSquare(p, maxExtent)
    ensures RowMajorSorted(s)
  {
    RowMajor(-(maxExtent as int), maxExtent + 1, -(maxExtent as int), maxExtent + 1)
  }

  predicate InSquare(p: Pos, maxExtent: nat)
  {
    InBox(p, -(maxExtent as int), maxExtent + 1, -(maxExtent as int), maxExtent + 1)
  }

  /** The offsets among `cells` whose areas are blocks, in order. */
  function Shape(cells: seq<Pos>, sample: Pos -> Area, lim: BlockLimits): (r: seq<Pos>)
    ensures forall p :: p in r <==> p in cells && IsBlock(sample(p), lim)
    decreases |cells|
  {
    if |cells| == 0 then []
    else
      var rest := Shape(cells[1..], sample, lim);
      assert forall p :: p in cells <==> p == cells[0] || p in cells[1..];
      if IsBlock(sample(cells[0]), lim) then [cells[0]] + rest else rest
  }

  /** Selecting blocks keeps the sweep order. */
  lemma {:induction false} ShapeSorted(cells: seq<Pos>, sample: Pos -> Area, lim: BlockLimits)
    requires RowMajorSorted(cells)
    ensures RowMajorSorted(Shape(cells, sample, lim))
    decreases |cells|
  {
    if |cells| > 0 {
      SortedTail(cells);
      ShapeSorted(cells[1..], sample, lim);
      if IsBlock(sample(cells[0]), lim) {
        SortedCons(cells[0], Shape(cells[1..], sample, lim));
      }
    }
  }

  /** The sum of the median hues of the areas at `blocks`. */
  function HueSum(blocks: seq<Pos>, sample: Pos -> Area): real
    decreases |blocks|
  {
    if |blocks| == 0 then 0.0 else sample(blocks[0]).mid.h + HueSum(blocks[1..], sample)
  }

  lemma HueSumCons(p: Pos, rest: seq<Pos>, sample: Pos -> Area)
    ensures HueSum([p] + rest, sample) == sample(p).mid.h + HueSum(rest, sample)
  {
    assert ([p] + rest)[1..] == rest;
  }

  /** The running state of the sweep: blocks so far, hue total, count. */
  datatype Sweep = Sweep(blocks: seq<Pos>, totalHue: real, count: nat)

  /** The sweep loop from `acc` over `cells`. */
  function SweepFrom(acc: Sweep, cells: seq<Pos>, sample: Pos -> Area, lim: BlockLimits): Sweep
    decreases |cells|
  {
    if |cells| == 0 then acc
    else
      var p := cells[0];
      var next := if IsBlock(sample(p), lim)
        then Sweep(acc.blocks + [p], acc.totalHue + sample(p).mid.h, acc.count + 1)
        else acc;
      SweepFrom(next, cells[1..], sample, lim)
  }

  /** The sweep collects exactly the block offsets, adds their hues and
      counts them. */
  lemma {:induction false} SweepOutcome(acc: Sweep, cells: seq<Pos>, sample: Pos -> Area, lim: BlockLimits)
    ensures var shape := Shape(cells, sample, lim);
      SweepFrom(acc, cells, sample, lim) ==
        Sweep(acc.blocks + shape, acc.totalHue + HueSum(shape, sample), acc.count + |shape|)
    decreases |cells|, 1
  {
    if |cells| == 0 {
      assert acc.blocks + [] == acc.blocks;
    } else if IsBlock(sample(cells[0]), lim) {
      SweepKeep(acc, cells, sample, lim);
    } else {
      SweepOutcome(acc, cells[1..], sample, lim);
    }
  }

  /** The step of `SweepOutcome` where the first cell is a block. */
  lemma {:induction false} SweepKeep(acc: Sweep, cells: seq<Pos>, sample: Pos -> Area, lim: BlockLimits)
    requires |cells| > 0 && IsBlock(sample(cells[0]), lim)
    ensures var shape := Shape(cells, sample, lim);
      SweepFrom(acc, cells, sample, lim) ==
        Sweep(acc.blocks + shape, acc.totalHue + HueSum(shape, sample), acc.count + |shape|)
    decreases |cells|, 0
  {
    var p := cells[0];
    var rest := Shape(cells[1..], sample, lim);
    var next := Sweep(acc.blocks + [p], acc.totalHue + sample(p).mid.h, acc.count + 1);
    SweepOutcome(next, cells[1..], sample, lim);
    var shape := [p] + rest;
    HueSumCons(p, rest, sample);
    assert acc.blocks + [p] + rest == acc.blocks + shape;
  }

  /** `getPuzzleDesc`: no piece when no offset of the square is a block;
      otherwise every block offset of the square, in sweep order, with the
      truncated mean of their median hues. */
  function PuzzleFromPreview(maxExtent: nat, sample: Pos -> Area, lim: BlockLimits): (r: Option<PuzzleDesc>)
    ensures r.None? <==> forall p :: InSquare(p, maxExtent) ==> !IsBlock(sample(p), lim)
    ensures r.Some? ==>
      && (forall p :: p in r.value.blocks <==> InSquare(p, maxExtent) && IsBlock(sample(p), lim))
      && RowMajorSorted(r.value.blocks)
      && |r.value.blocks| > 0
      && r.value.hue == Trunc(HueSum(r.value.blocks, sample) / |r.value.blocks| as real)
  {
    var acc := SweepFrom(Sweep([], 0.0, 0), Offsets(maxExtent), sample, lim);
    SquareSweep(maxExtent, sample, lim);
    if acc.count == 0 then None
    else Some(PuzzleDesc(acc.blocks, Trunc(acc.totalHue / acc.count as real)))
  }

  /** The sweep over the whole preview square. */
  lemma SquareSweep(maxExtent: nat, sample: Pos -> Area, lim: BlockLimits)
    ensures var shape := Shape(Offsets(maxExtent), sample, lim);
      && SweepFrom(Sweep([], 0.0, 0), Offsets(maxExtent), sample, lim) == Sweep(shape, HueSum(shape, sample), |shape|)
      && (|shape| == 0 <==> forall p :: InSquare(p, maxExtent) ==> !IsBlock(sample(p), lim))
      && (forall p :: p in shape <==> InSquare(p, maxExtent) && IsBlock(sample(p), lim))
      && RowMajorSorted(shape)
  {
    var cells := Offsets(maxExtent);
    var shape := Shape(cells, sample, lim);
    SweepOutcome(Sweep([], 0.0, 0), cells, sample, lim);
    ShapeSorted(cells, sample, lim);
    assert [] + shape == shape;
    if |shape| > 0 {
      assert shape[0] in shape;
    }
  }

  /** Hue sums stay within the bounds of their terms. */
  lemma {:induction false} HueSumBounds(blocks: seq<Pos>, sample: Pos -> Area, lo: real, hi: real)
    requires forall i :: 0 <= i < |blocks| ==> lo <= sample(blocks[i]).mid.h < hi
    ensures |blocks| as real * lo <= HueSum(blocks, sample)
    ensures |blocks| > 0 ==> HueSum(blocks, sample) < |blocks| as real * hi
    decreases |blocks|
  {
    if |blocks| > 0 {
      assert forall i :: 0 <= i < |blocks| - 1 ==> blocks[1..][i] == blocks[i + 1];
      HueSumBounds(blocks[1..], sample, lo, hi);
      assert |blocks| as real * lo == lo + (|blocks| - 1) as real * lo;
      assert |blocks| as real * hi == hi + (|blocks| - 1) as real * hi;
    }
  }

  /** When every block's median hue is a hue in [0, 360), so is the
      piece's hue. */
  lemma PieceHueInRange(maxExtent: nat, sample: Pos -> Area, lim: BlockLimits)
    requires forall p :: InSquare(p, maxExtent) && IsBlock(sample(p), lim) ==> 0.0 <= sample(p).mid.h < 360.0
    ensures var r := PuzzleFromPreview(maxExtent, sample, lim);
      r.Some? ==> 0 <= r.value.hue < 360
  {
    var r := PuzzleFromPreview(maxExtent, sample, lim);
    if r.Some? {
      var blocks := r.value.blocks;
      assert forall i :: 0 <= i < |blocks| ==> blocks[i] in blocks;
      MeanHueInRange(blocks, sample);
    }
  }

  /** The truncated mean of hues in [0, 360) is a hue in [0, 360). */
  lemma MeanHueInRange(blocks: seq<Pos>, sample: Pos -> Area)
    requires |blocks| > 0
    requires forall i :: 0 <= i < |blocks| ==> 0.0 <= sample(blocks[i]).mid.h < 360.0
    ensures 0 <= Trunc(HueSum(blocks, sample) / |blocks| as real) < 360
  {
    HueSumBounds(blocks, sample, 0.0, 360.0);
    MeanBounds(HueSum(blocks, sample), |blocks|, 0.0, 360.0);
  }

  /** `doPreviewPuzzle`: no piece when the screenshot fails, otherwise the
      piece read from the preview. A preview whose stabilization wait
      failed is never taken (the whole extraction is abandoned first), so
      it shows nothing here. */
  function PreviewPiece(pv: Preview, maxExtent: nat, lim: BlockLimits): (r: Option<PuzzleDesc>)
    ensures r.None? <==>
      !pv.Captured? || forall p :: InSquare(p, maxExtent) ==> !IsBlock(pv.sample(p), lim)
    ensures r.Some? ==>
      && WellFormed(r.value, maxExtent)
      && (forall p :: p in r.value.blocks <==> InSquare(p, maxExtent) && IsBlock(pv.sample(p), lim))
      && r.value.hue == Trunc(HueSum(r.value.blocks, pv.sample) / |r.value.blocks| as real)
  {
    match pv
    case StabilizeFailed => None
    case CaptureFailed => None
    case Captured(sample) =>
      var r := PuzzleFromPreview(maxExtent, sample, lim);
      if r.Some? then
        assert forall k :: 0 <= k < |r.value.blocks| ==> r.value.blocks[k] in r.value.blocks;
        r
      else r
  }

  /** A piece as the extraction produces it: a nonempty, duplicate-free
      shape inside the preview square. */
  predicate WellFormed(pz: PuzzleDesc, maxExtent: nat)
  {
    |pz.blocks| > 0 && RowMajorSorted(pz.blocks) &&
    forall i :: 0 <= i < |pz.blocks| ==> InSquare(pz.blocks[i], maxExtent)
  }

  /** The preview loop of `getAllPuzzleDesc` over thumbnails `i` up to
      `count`: `failed(k)` tells whether the stabilization wait before
      thumbnail `k` failed, `shown(k)` is the piece its preview showed, if
      any. Any failed wait abandons the whole loop. */
  function PreviewFrom(i: nat, count: nat, failed: nat -> bool, shown: nat -> Option<PuzzleDesc>): (r: Option<seq<PuzzleDesc>>)
    requires i <= count
    ensures r.None? <==> exists k :: i <= k < count && failed(k)
    ensures r.Some? ==> |r.value| <= count - i
    ensures r.Some? && (forall k :: i <= k < count ==> shown(k).Some?) ==> |r.value| == count - i
    decreases count - i
  {
    if i == count then Some([])
    else if failed(i) then None
    else
      match PreviewFrom(i + 1, count, failed, shown)
      case None => None
      case Some(rest) =>
        match shown(i)
        case None => Some(rest)
        case Some(pz) => Some([pz] + rest)
  }

  /** What one thumbnail adds to the piece list: its piece, if it showed
      one. */
  function Contribution(piece: Option<PuzzleDesc>): (r: seq<PuzzleDesc>)
    ensures forall pz :: pz in r <==> piece == Some(pz)
  {
    match piece
    case None => []
    case Some(pz) => [pz]
  }

  /** One iteration of the preview loop, when no wait fails. */
  lemma PreviewFromStep(i: nat, count: nat, failed: nat -> bool, shown: nat -> Option<PuzzleDesc>)
    requires i < count
    requires PreviewFrom(i, count, failed, shown).Some?
    ensures !failed(i)
    ensures PreviewFrom(i + 1, count, failed, shown).Some?
    ensures PreviewFrom(i, count, failed, shown).value ==
      Contribution(shown(i)) + PreviewFrom(i + 1, count, failed, shown).value
  {
  }

  /** Every piece the preview loop returns is the piece some thumbnail
      showed. */
  lemma {:induction false} PreviewFromSound(i: nat, count: nat, failed: nat -> bool, shown: nat -> Option<PuzzleDesc>)
    requires i <= count
    requires PreviewFrom(i, count, failed, shown).Some?
    ensures var pieces := PreviewFrom(i, count, failed, shown).value;
      forall k :: 0 <= k < |pieces| ==> exists t :: i <= t < count && shown(t) == Some(pieces[k])
    decreases count - i
  {
    if i < count {
      PreviewFromStep(i, count, failed, shown);
      PreviewFromSound(i + 1, count, failed, shown);
      var pieces := PreviewFrom(i, count, failed, shown).value;
      var head := Contribution(shown(i));
      var rest := PreviewFrom(i + 1, count, failed, shown).value;
      forall k | 0 <= k < |pieces|
        ensures exists t :: i <= t < count && shown(t) == Some(pieces[k])
      {
        if k < |head| {
          assert pieces[k] in head;
        } else {
          assert pieces[k] == rest[k - |head|];
        }
      }
    }
  }

  /** Every piece a thumbnail showed is among the pieces the preview loop
      returns. */
  lemma {:induction false} PreviewFromComplete(i: nat, count: nat, failed: nat -> bool, shown: nat -> Option<PuzzleDesc>)
    requires i <= count
    requires PreviewFrom(i, count, failed, shown).Some?
    ensures var pieces := PreviewFrom(i, count, failed, shown).value;
      forall t, pz :: i <= t < count && shown(t) == Some(pz) ==> pz in pieces
    decreases count - i
  {
    if i < count {
      PreviewFromStep(i, count, failed, shown);
      PreviewFromComplete(i + 1, count, failed, shown);
      var head := Contribution(shown(i));
      var rest := PreviewFrom(i + 1, count, failed, shown).value;
      assert forall pz :: pz in head || pz in rest ==> pz in head + rest;
    }
  }

  /** The preview loop handles thumbnails one at a time, in order: the
      pieces of a range are the pieces of its first part followed by those
      of the rest. */
  lemma {:induction false} PreviewFromSplit(i: nat, m: nat, count: nat, failed: nat -> bool, shown: nat -> Option<PuzzleDesc>)
    requires i <= m <= count
    requires forall t :: i <= t < count ==> !failed(t)
    ensures PreviewFrom(i, count, failed, shown).Some?
    ensures PreviewFrom(i, count, failed, shown).value ==
      PreviewFrom(i, m, failed, shown).value + PreviewFrom(m, count, failed, shown).value
    decreases m - i
  {
    if i == m {
      assert PreviewFrom(i, m, failed, shown).value == [];
    } else {
      PreviewFromStep(i, count, failed, shown);
      PreviewFromStep(i, m, failed, shown);
      PreviewFromSplit(i + 1, m, count, failed, shown);
      var head := Contribution(shown(i));
      var left := PreviewFrom(i + 1, m, failed, shown).value;
      var right := PreviewFrom(m, count, failed, shown).value;
      assert head + (left + right) == (head + left) + right;
    }
  }

  /** Whether the stabilization wait before each thumbnail failed. */
  function WaitFailed(preview: nat -> Preview): nat -> bool
  {
    (k: nat) => preview(k).StabilizeFailed?
  }

  /** The piece each thumbnail's preview shows, if any. */
  function Shown(preview: nat -> Preview, maxExtent: nat, lim: BlockLimits): nat -> Option<PuzzleDesc>
  {
    (k: nat) => PreviewPiece(preview(k), maxExtent, lim)
  }

  /** Without a failed wait, the pieces of all thumbnails but the last,
      followed by the last thumbnail's piece if it shows one: the list is
      built by appending in thumbnail order. */
  lemma AllPuzzleDescSnoc(thumbs: seq<Pos>, preview: nat -> Preview, maxExtent: nat, lim: BlockLimits)
    requires |thumbs| > 0
    requires forall k :: 0 <= k < |thumbs| ==> !preview(k).StabilizeFailed?
    ensures AllPuzzleDesc(thumbs, preview, maxExtent, lim) ==
      AllPuzzleDesc(thumbs[..|thumbs| - 1], preview, maxExtent, lim) +
      Contribution(PreviewPiece(preview(|thumbs| - 1), maxExtent, lim))
  {
    var n := |thumbs| - 1;
    var failed := WaitFailed(preview);
    var shown := Shown(preview, maxExtent, lim);
    var whole := AllPuzzleDesc(thumbs, preview, maxExtent, lim);
    var front := AllPuzzleDesc(thumbs[..n], preview, maxExtent, lim);
    var last := Contribution(PreviewPiece(preview(n), maxExtent, lim));
    assert whole == front + last by {
      assert forall k: nat :: failed(k) == preview(k).StabilizeFailed?;
      PreviewFromSplit(0, n, n + 1, failed, shown);
      PreviewFromStep(n, n + 1, failed, shown);
      assert PreviewFrom(n + 1, n + 1, failed, shown).value == [];
      assert PreviewFrom(n, n + 1, failed, shown).value == last + [];
      assert last + [] == last;
      assert whole == PreviewFrom(0, n + 1, failed, shown).value;
      assert front == PreviewFrom(0, n, failed, shown).value;
    }
  }

  /** `getAllPuzzleDesc`: nothing at all when any stabilization wait fails;
      otherwise exactly the pieces the captured previews showed, in
      thumbnail order, each well formed. */
  function AllPuzzleDesc(thumbs: seq<Pos>, preview: nat -> Preview, maxExtent: nat, lim: BlockLimits): (r: seq<PuzzleDesc>)
    ensures (exists k :: 0 <= k < |thumbs| && preview(k).StabilizeFailed?) ==> r == []
    ensures |r| <= |thumbs|
    ensures forall k :: 0 <= k < |r| ==> WellFormed(r[k], maxExtent)
    ensures forall k :: 0 <= k < |r| ==>
      exists t :: 0 <= t < |thumbs| && PreviewPiece(preview(t), maxExtent, lim) == Some(r[k])
    ensures (forall k :: 0 <= k < |thumbs| ==> !preview(k).StabilizeFailed?) ==>
      forall t, pz :: 0 <= t < |thumbs| && PreviewPiece(preview(t), maxExtent, lim) == Some(pz) ==> pz in r
    ensures (forall k :: 0 <= k < |thumbs| ==> PreviewPiece(preview(k), maxExtent, lim).Some?) ==>
      |r| == |thumbs|
  {
    var failed := WaitFailed(preview);
    var shown := Shown(preview, maxExtent, lim);
    assert forall k: nat :: failed(k) == preview(k).StabilizeFailed?;
    assert forall k: nat :: shown(k) == PreviewPiece(preview(k), maxExtent, lim);
    var pieces := PreviewFrom(0, |thumbs|, failed, shown);
    if pieces.None? then []
    else
      PreviewFromSound(0, |thumbs|, failed, shown);
      PreviewFromComplete(0, |thumbs|, failed, shown);
      pieces.value
  }
}

=== FILE: recognition.dfy ===
/** The recognition pass: from one screen to a board description.

    The stages run strictly in sequence: extract the pieces (none is a
    soft, non-error result), estimate the board size (a zero dimension is
    fatal), classify banned and locked blocks, derive the hue families from
    the pieces, then for each family decode the projection figures (a
    length mismatch with the board would be fatal) and claim its locked
    blocks. Everything the pass reads from the screen or the device is an
    input (`Screen`); the fixed constants and the helpers that are not part
    of this model are configuration (`Config`). */
module Recognition {
  import opened Optional
  import opened Grid
  import opened Color
  import opened BoardSize
  import opened Projection
  import opened Thumbnails
  import opened PuzzleShape
  import opened Blocks
  import opened HuePartition

  /** `BoardDesc`: the record handed to the solver. */
  datatype BoardDesc = BoardDesc(
    w: int,
    h: int,
    projDescList: seq<ProjDesc>,
    bannedBlockList: seq<BannedBlockDesc>,
    lockedBlockList: seq<seq<LockedBlockDesc>>,
    puzzleList: seq<PuzzleDesc>,
    hueList: seq<int>)

  /** How a pass ends. Only `Recognized` reports success; `NoPuzzles` is
      the soft empty result, the others abort the pass. */
  datatype Outcome =
    | NoImage
    | NoPuzzles
    | NoBoardSize
    | LengthMismatch
    | Recognized(board: BoardDesc)

  /** The fixed constants of the recognizer and the helpers it calls that
      are not part of this model. */
  datatype Config = Config(
    thumbRows: nat,
    thumbCols: nat,
    thumbLimits: Limits,
    puzzleMaxExtent: nat,
    blockLimits: BlockLimits,
    boardMaxExtent: nat,
    geomX: AxisGeometry,
    geomY: AxisGeometry,
    calibration: Calibration,
    lockedLimits: LockedLimits,
    toGrid: ToGrid,
    toPixel: ToPixel,
    cluster: Clusterer,
    meanHue: HueMean,
    diffHue: HueDiff,
    hueTolerance: int)

  /** What the pass observes: whether an image was supplied, the variance
      of every thumbnail cell, the outcome of previewing each thumbnail,
      the marker matches above and left of the board (after the tab check)
      with the order the score map is iterated in, the banned-marker
      matches, the board's block areas by pixel corner, and the projection
      figure samples for each hue. */
  datatype Screen = Screen(
    hasImage: bool,
    thumbVariance: Pos -> real,
    preview: nat -> Preview,
    xFigures: AxisEvidence,
    yFigures: AxisEvidence,
    bannedMarkers: seq<Pos>,
    boardArea: Pos -> Area,
    figures: int -> FigureSamples)

  /** What the configuration must satisfy for the pass to be defined: a
      positive pitch of projection marks, and iteration orders that visit
      the candidate dimensions. */
  predicate Admissible(screen: Screen, cfg: Config)
  {
    && cfg.calibration.eachGap > 0.0
    && IsIterationOrder(screen.xFigures.order, Candidates(cfg.boardMaxExtent))
    && IsIterationOrder(screen.yFigures.order, Candidates(cfg.boardMaxExtent))
  }

  /** The pieces the first stage extracts. */
  function Pieces(screen: Screen, cfg: Config): seq<PuzzleDesc>
  {
    var thumbs := ThumbLocs(cfg.thumbRows, cfg.thumbCols, screen.thumbVariance, cfg.thumbLimits);
    AllPuzzleDesc(thumbs, screen.preview, cfg.puzzleMaxExtent, cfg.blockLimits)
  }

  /** The board size the geometry stage estimates, (width, height). */
  function Size(screen: Screen, cfg: Config): (int, int)
    requires Admissible(screen, cfg)
  {
    EstimateSize(screen.xFigures, screen.yFigures, cfg.boardMaxExtent, cfg.geomX, cfg.geomY)
  }

  /** The per-hue loop of `Run` from family `k` on: decode the family's
      projection, abort on a length mismatch, claim its locked blocks. The
      mismatch never happens: every family gets a projection of the board's
      size, and the groups are those of the pool-and-claim partition. */
  function HueLoop(pool: Pool, hues: seq<int>, k: nat, w: nat, h: nat, screen: Screen, cfg: Config)
    : (r: Option<(seq<ProjDesc>, seq<seq<LockedBlockDesc>>)>)
    requires k <= |hues| && cfg.calibration.eachGap > 0.0
    ensures r.Some?
    ensures |r.value.0| == |hues| - k && |r.value.1| == |hues| - k
    ensures forall i :: 0 <= i < |r.value.0| ==>
      |r.value.0[i].xProjList| == w && |r.value.0[i].yProjList| == h
    ensures forall i :: 0 <= i < |r.value.0| ==>
      r.value.0[i] == GetProjDesc(w, h, screen.figures(hues[k + i]), cfg.calibration)
    ensures r.value.1 == ClaimFrom(pool, hues, k, cfg.diffHue, cfg.hueTolerance)
    decreases |hues| - k
  {
    if k == |hues| then Some(([], []))
    else
      var projDesc := GetProjDesc(w, h, screen.figures(hues[k]), cfg.calibration);
      if |projDesc.xProjList| != w || |projDesc.yProjList| != h then None
      else
        var c := Claim(pool, hues[k], cfg.diffHue, cfg.hueTolerance);
        match HueLoop(c.1, hues, k + 1, w, h, screen, cfg)
        case None => None
        case Some(rest) =>
          var projs := [projDesc] + rest.0;
          assert forall i :: 0 < i < |projs| ==> projs[i] == rest.0[i - 1];
          Some((projs, [c.0] + rest.1))
  }

  /** The invariants of a board description the pass produces. */
  ghost predicate ValidBoard(b: BoardDesc, cfg: Config)
  {
    && 2 <= b.w <= 2 * cfg.boardMaxExtent + 1
    && 2 <= b.h <= 2 * cfg.boardMaxExtent + 1
    && |b.projDescList| == |b.lockedBlockList| == |b.hueList|
    && (forall i :: 0 <= i < |b.projDescList| ==>
          |b.projDescList[i].xProjList| == b.w && |b.projDescList[i].yProjList| == b.h)
    && (forall i :: 0 <= i < |b.bannedBlockList| ==> OnBoard(b.bannedBlockList[i].loc, b.w, b.h))
    && (forall j, i :: 0 <= j < |b.lockedBlockList| && 0 <= i < |b.lockedBlockList[j]| ==>
          OnBoard(b.lockedBlockList[j][i].loc, b.w, b.h))
    && (forall j, k, x, y ::
          (0 <= j < |b.lockedBlockList| && 0 <= k < |b.lockedBlockList| &&
           x in b.lockedBlockList[j] && y in b.lockedBlockList[k] && x.loc == y.loc) ==> j == k && x == y)
    && (forall j :: 0 <= j < |b.lockedBlockList| ==> InSweepOrder(b.lockedBlockList[j]))
    && |b.puzzleList| > 0
    && (forall i :: 0 <= i < |b.puzzleList| ==> WellFormed(b.puzzleList[i], cfg.puzzleMaxExtent))
  }

  /** `Run`: fails without an image, ends softly without pieces, fails
      without a board size, and otherwise recognizes a valid board. The
      projection length check never fires. */
  function Run(screen: Screen, cfg: Config): (out: Outcome)
    requires Admissible(screen, cfg)
    ensures out.NoImage? <==> !screen.hasImage
    ensures out.NoPuzzles? <==> screen.hasImage && |Pieces(screen, cfg)| == 0
    ensures out.NoBoardSize? <==>
      (screen.hasImage && |Pieces(screen, cfg)| > 0 &&
       (|screen.xFigures.matches| == 0 || |screen.yFigures.matches| == 0 || cfg.boardMaxExtent == 0))
    ensures !out.LengthMismatch?
    ensures out.Recognized? ==> ValidBoard(out.board, cfg)
    ensures out.Recognized? ==>
      && (out.board.w, out.board.h) == Size(screen, cfg)
      && out.board.puzzleList == Pieces(screen, cfg)
  {
    if !screen.hasImage then NoImage
    else
      var puzzleList := Pieces(screen, cfg);
      if |puzzleList| == 0 then NoPuzzles
      else
        var size := Size(screen, cfg);
        if size.0 == 0 || size.1 == 0 then NoBoardSize
        else Assemble(size.0, size.1, puzzleList, screen, cfg)
  }

  /** The board `Run` recognizes is the one the later stages compute from
      the extracted pieces and the estimated size: the pieces' hue
      families, the converted banned markers, the claim partition of the
      board's locked blocks, and each family's decoded projection. */
  lemma RunBoardContents(screen: Screen, cfg: Config)
    requires Admissible(screen, cfg)
    ensures var out := Run(screen, cfg);
      out.Recognized? ==>
        && out.board.hueList == PossibleHues(Pieces(screen, cfg), cfg.cluster, cfg.meanHue, cfg.hueTolerance)
        && out.board.bannedBlockList == BannedBlocks(out.board.w, out.board.h, screen.bannedMarkers, cfg.toGrid)
        && out.board.lockedBlockList ==
             LockedGroups(LockedBlocks(out.board.w, out.board.h, cfg.toPixel, screen.boardArea, cfg.lockedLimits),
                          out.board.hueList, cfg.diffHue, cfg.hueTolerance)
        && |out.board.projDescList| == |out.board.hueList|
        && forall i :: 0 <= i < |out.board.projDescList| ==>
             out.board.projDescList[i] ==
               GetProjDesc(out.board.w, out.board.h, screen.figures(out.board.hueList[i]), cfg.calibration)
  {
  }

  /** The stages after the board size is known: classify the banned and
      locked blocks, derive the hue families, and decode each family's
      projection and claim its locked blocks. The board assembled is valid,
      and the length check never fires. */
  function Assemble(w: nat, h: nat, puzzleList: seq<PuzzleDesc>, screen: Screen, cfg: Config): (out: Outcome)
    requires cfg.calibration.eachGap > 0.0
    ensures out.Recognized?
    ensures out.board.w == w && out.board.h == h && out.board.puzzleList == puzzleList
    ensures out.board.hueList == PossibleHues(puzzleList, cfg.cluster, cfg.meanHue, cfg.hueTolerance)
    ensures out.board.bannedBlockList == BannedBlocks(w, h, screen.bannedMarkers, cfg.toGrid)
    ensures out.board.lockedBlockList ==
      LockedGroups(LockedBlocks(w, h, cfg.toPixel, screen.boardArea, cfg.lockedLimits),
                   out.board.hueList, cfg.diffHue, cfg.hueTolerance)
    ensures |out.board.projDescList| == |out.board.lockedBlockList| == |out.board.hueList|
    ensures forall i :: 0 <= i < |out.board.projDescList| ==>
      out.board.projDescList[i] == GetProjDesc(w, h, screen.figures(out.board.hueList[i]), cfg.calibration)
    ensures forall i :: 0 <= i < |out.board.projDescList| ==>
      |out.board.projDescList[i].xProjList| == w && |out.board.projDescList[i].yProjList| == h
    ensures forall i :: 0 <= i < |out.board.bannedBlockList| ==> OnBoard(out.board.bannedBlockList[i].loc, w, h)
    ensures forall j, i :: 0 <= j < |out.board.lockedBlockList| && 0 <= i < |out.board.lockedBlockList[j]| ==>
      OnBoard(out.board.lockedBlockList[j][i].loc, w, h)
    ensures forall j, k, x, y ::
      (0 <= j < |out.board.lockedBlockList| && 0 <= k < |out.board.lockedBlockList| &&
       x in out.board.lockedBlockList[j] && y in out.board.lockedBlockList[k] && x.loc == y.loc) ==> j == k && x == y
    ensures forall j :: 0 <= j < |out.board.lockedBlockList| ==> InSweepOrder(out.board.lockedBlockList[j])
  {
    var locked := LockedBlocks(w, h, cfg.toPixel, screen.boardArea, cfg.lockedLimits);
    var hueList := PossibleHues(puzzleList, cfg.cluster, cfg.meanHue, cfg.hueTolerance);
    match HueLoop(FullPool(locked), hueList, 0, w, h, screen, cfg)
    case None => LengthMismatch
    case Some(lists) =>
      var board := BoardDesc(w, h, lists.0,
        BannedBlocks(w, h, screen.bannedMarkers, cfg.toGrid), lists.1, puzzleList, hueList);
      assert lists.1 == LockedGroups(locked, hueList, cfg.diffHue, cfg.hueTolerance);
      LockedGroupsValid(w, h, screen, cfg, hueList);
      LockedGroupsSorted(w, h, screen, cfg, hueList);
      Recognized(board)
  }

  /** The locked groups of an assembled board hold only cells of the
      board, and no cell in two groups. */
  lemma LockedGroupsValid(w: nat, h: nat, screen: Screen, cfg: Config, hues: seq<int>)
    ensures var locked := LockedBlocks(w, h, cfg.toPixel, screen.boardArea, cfg.lockedLimits);
      var groups := LockedGroups(locked, hues, cfg.diffHue, cfg.hueTolerance);
      && (forall j, i :: 0 <= j < |groups| && 0 <= i < |groups[j]| ==> OnBoard(groups[j][i].loc, w, h))
      && (forall j, k, x, y ::
            (0 <= j < |groups| && 0 <= k < |groups| &&
             x in groups[j] && y in groups[k] && x.loc == y.loc) ==> j == k && x == y)
  {
    var locked := LockedBlocks(w, h, cfg.toPixel, screen.boardArea, cfg.lockedLimits);
    var groups: seq<seq<LockedBlockDesc>> := LockedGroups(locked, hues, cfg.diffHue, cfg.hueTolerance);
    assert forall b :: b in locked ==>
      (OnBoard(b.loc, w, h) && b == LockedAt(b.loc, w, h, cfg.toPixel, screen.boardArea));
    forall j: int, i: int | 0 <= j < |groups| && 0 <= i < |groups[j]|
      ensures OnBoard(groups[j][i].loc, w, h)
    {
      assert groups[j][i] in groups[j];
    }
  }

  /** Each locked group of an assembled board lists its cells in sweep
      order, so no cell occurs twice within one group. */
  lemma LockedGroupsSorted(w: nat, h: nat, screen: Screen, cfg: Config, hues: seq<int>)
    ensures var locked := LockedBlocks(w, h, cfg.toPixel, screen.boardArea, cfg.lockedLimits);
      var groups := LockedGroups(locked, hues, cfg.diffHue, cfg.hueTolerance);
      forall j :: 0 <= j < |groups| ==> InSweepOrder(groups[j])
  {
    var locked := LockedBlocks(w, h, cfg.toPixel, screen.boardArea, cfg.lockedLimits);
    var groups: seq<seq<LockedBlockDesc>> := LockedGroups(locked, hues, cfg.diffHue, cfg.hueTolerance);
    assert InSweepOrder(locked);
    forall j | 0 <= j < |groups| ensures InSweepOrder(groups[j]) {
      OwnedSorted(locked, hues, j, cfg.diffHue, cfg.hueTolerance);
    }
  }

  /** A strip without a single thumbnail candidate ends the pass softly,
      with no pieces. */
  lemma NoCandidatesNoPuzzles(screen: Screen, cfg: Config)
    requires Admissible(screen, cfg) && screen.hasImage
    requires forall p :: InBox(p, 0, cfg.thumbCols, 0, cfg.thumbRows) ==>
      !IsCandidate(p, screen.thumbVariance, cfg.thumbLimits)
    ensures Run(screen, cfg) == NoPuzzles
  {
  }
}

=== FILE: thumbnails.dfy ===
/** Thumbnail discovery: which cells of the puzzle-piece strip hold a piece.

    The strip is a fixed grid of `rows` by `cols` thumbnail cells, scanned
    row by row. A cell whose colour variance exceeds a low threshold is a
    candidate. The scan trusts what it sees only when the candidates form
    one unbroken run from the first cell on: it gives up, returning no
    thumbnails at all, on a candidate that is also above a second, higher
    threshold, on a candidate that comes after a background cell, and when
    every cell of the strip is a candidate. Cells are returned as grid
    positions `Pos(column, row)`; their pixel corner is a fixed affine
    function of the cell and is not modelled. */
module Thumbnails {
  import opened Grid

  /** The two variance thresholds. */
  datatype Limits = Limits(varGrt: real, varLes: real)

  /** A cell that looks like a thumbnail. */
  predicate IsCandidate(p: Pos, variance: Pos -> real, lim: Limits)
  {
    variance(p) > lim.varGrt
  }

  /** A candidate whose variance is too high to be trusted. */
  predicate IsAmbiguous(p: Pos, variance: Pos -> real, lim: Limits)
  {
    variance(p) > lim.varGrt && variance(p) > lim.varLes
  }

  /** The scan's state: the thumbnails found so far and whether a
      background cell has been seen; or the verdict that the strip is
      rejected. */
  datatype ScanState = Scanning(found: seq<Pos>, hasGap: bool) | Rejected

  /** One iteration of the scan over cell `p`. */
  function Step(st: ScanState, p: Pos, variance: Pos -> real, lim: Limits): ScanState
  {
    match st
    case Rejected => Rejected
    case Scanning(found, hasGap) =>
      if variance(p) > lim.varGrt then
        if variance(p) > lim.varLes then Rejected
        else if hasGap then Rejected
        else Scanning(found + [p], hasGap)
      else Scanning(found, true)
  }

  /** The scan over `cells`, in order. */
  function Scan(st: ScanState, cells: seq<Pos>, variance: Pos -> real, lim: Limits): ScanState
    decreases |cells|
  {
    if |cells| == 0 then st else Scan(Step(st, cells[0], variance, lim), cells[1..], variance, lim)
  }

  /** The candidates among `cells`, in their order. */
  function CandidateCells(cells: seq<Pos>, variance: Pos -> real, lim: Limits): (r: seq<Pos>)
    ensures |r| <= |cells|
    ensures forall p :: p in r <==> p in cells && IsCandidate(p, variance, lim)
    ensures |r| == |cells| <==> forall i :: 0 <= i < |cells| ==> IsCandidate(cells[i], variance, lim)
    ensures (forall i :: 0 <= i < |cells| ==> !IsCandidate(cells[i], variance, lim)) ==> r == []
    decreases |cells|
  {
    if |cells| == 0 then []
    else
      var rest := CandidateCells(cells[1..], variance, lim);
      assert forall i :: 0 <= i < |cells| - 1 ==> cells[1..][i] == cells[i + 1];
      assert forall p :: p in cells <==> p == cells[0] || p in cells[1..];
      (if IsCandidate(cells[0], variance, lim) then [cells[0]] else []) + rest
  }

  /** Filtering keeps the sweep order: the candidates of a sorted sweep are
      sorted. */
  lemma {:induction false} CandidateCellsSorted(cells: seq<Pos>, variance: Pos -> real, lim: Limits)
    requires RowMajorSorted(cells)
    ensures RowMajorSorted(CandidateCells(cells, variance, lim))
    decreases |cells|
  {
    if |cells| > 0 {
      SortedTail(cells);
      CandidateCellsSorted(cells[1..], variance, lim);
      if IsCandidate(cells[0], variance, lim) {
        SortedCons(cells[0], CandidateCells(cells[1..], variance, lim));
      }
    }
  }

  /** Some cell of `cells` is an untrusted candidate. */
  predicate HasAmbiguous(cells: seq<Pos>, variance: Pos -> real, lim: Limits)
  {
    exists i :: 0 <= i < |cells| && IsAmbiguous(cells[i], variance, lim)
  }

  /** Some cell of `cells` is background. */
  predicate HasBackground(cells: seq<Pos>, variance: Pos -> real, lim: Limits)
  {
    exists i :: 0 <= i < |cells| && !IsCandidate(cells[i], variance, lim)
  }

  /** Some candidate of `cells` follows a background cell, counting one seen
      before `cells` started when `gap` is set. */
  predicate HasGapBefore(cells: seq<Pos>, gap: bool, variance: Pos -> real, lim: Limits)
  {
    exists j :: 0 <= j < |cells| && IsCandidate(cells[j], variance, lim) &&
      (gap || exists i :: 0 <= i < j && !IsCandidate(cells[i], variance, lim))
  }

  lemma ShiftAmbiguous(cells: seq<Pos>, variance: Pos -> real, lim: Limits)
    requires |cells| > 0
    ensures HasAmbiguous(cells, variance, lim) <==>
      IsAmbiguous(cells[0], variance, lim) || HasAmbiguous(cells[1..], variance, lim)
  {
    if HasAmbiguous(cells[1..], variance, lim) {
      var i :| 0 <= i < |cells[1..]| && IsAmbiguous(cells[1..][i], variance, lim);
      assert IsAmbiguous(cells[i + 1], variance, lim);
    }
    if HasAmbiguous(cells, variance, lim) && !IsAmbiguous(cells[0], variance, lim) {
      var i :| 0 <= i < |cells| && IsAmbiguous(cells[i], variance, lim);
      assert IsAmbiguous(cells[1..][i - 1], variance, lim);
    }
  }

  lemma ShiftBackground(cells: seq<Pos>, variance: Pos -> real, lim: Limits)
    requires |cells| > 0
    ensures HasBackground(cells, variance, lim) <==>
      !IsCandidate(cells[0], variance, lim) || HasBackground(cells[1..], variance, lim)
  {
    if HasBackground(cells[1..], variance, lim) {
      var i :| 0 <= i < |cells[1..]| && !IsCandidate(cells[1..][i], variance, lim);
      assert !IsCandidate(cells[i + 1], variance, lim);
    }
    if HasBackground(cells, variance, lim) && IsCandidate(cells[0], variance, lim) {
      var i :| 0 <= i < |cells| && !IsCandidate(cells[i], variance, lim);
      assert !IsCandidate(cells[1..][i - 1], variance, lim);
    }
  }

  /** After a candidate with no gap before it, a gap must come later. */
  lemma ShiftGapAfterCandidate(cells: seq<Pos>, variance: Pos -> real, lim: Limits)
    requires |cells| > 0 && IsCandidate(cells[0], variance, lim)
    ensures HasGapBefore(cells, false, variance, lim) <==> HasGapBefore(cells[1..], false, variance, lim)
  {
    var rest := cells[1..];
    if HasGapBefore(cells, false, variance, lim) {
      var j :| 0 <= j < |cells| && IsCandidate(cells[j], variance, lim) &&
        exists i :: 0 <= i < j && !IsCandidate(cells[i], variance, lim);
      var i :| 0 <= i < j && !IsCandidate(cells[i], variance, lim);
      assert rest[j - 1] == cells[j] && rest[i - 1] == cells[i];
      assert 0 <= i - 1 < j - 1 && !IsCandidate(rest[i - 1], variance, lim);
    }
    if HasGapBefore(rest, false, variance, lim) {
      var j :| 0 <= j < |rest| && IsCandidate(rest[j], variance, lim) &&
        exists i :: 0 <= i < j && !IsCandidate(rest[i], variance, lim);
      var i :| 0 <= i < j && !IsCandidate(rest[i], variance, lim);
      assert rest[j] == cells[j + 1] && rest[i] == cells[i + 1];
      assert 0 <= i + 1 < j + 1 && !IsCandidate(cells[i + 1], variance, lim);
    }
  }

  /** After a background cell, any later candidate is a gap. */
  lemma ShiftGapAfterBackground(cells: seq<Pos>, gap: bool, variance: Pos -> real, lim: Limits)
    requires |cells| > 0 && !IsCandidate(cells[0], variance, lim)
    ensures HasGapBefore(cells, gap, variance, lim) <==> HasGapBefore(cells[1..], true, variance, lim)
  {
    var rest := cells[1..];
    if HasGapBefore(cells, gap, variance, lim) {
      var j :| 0 <= j < |cells| && IsCandidate(cells[j], variance, lim) &&
        (gap || exists i :: 0 <= i < j && !IsCandidate(cells[i], variance, lim));
      assert rest[j - 1] == cells[j];
    }
    if HasGapBefore(rest, true, variance, lim) {
      var j :| 0 <= j < |rest| && IsCandidate(rest[j], variance, lim);
      assert rest[j] == cells[j + 1];
      assert 0 < j + 1 && !IsCandidate(cells[0], variance, lim);
    }
  }

  lemma {:induction false} RejectedStays(cells: seq<Pos>, variance: Pos -> real, lim: Limits)
    ensures Scan(Rejected, cells, variance, lim) == Rejected
    decreases |cells|
  {
    if |cells| > 0 {
      RejectedStays(cells[1..], variance, lim);
    }
  }

  /** What the scan computes from any state: rejection exactly when an
      untrusted candidate or a candidate after background occurs, and
      otherwise the candidates appended in order. */
  lemma {:induction false} ScanOutcome(found: seq<Pos>, gap: bool, cells: seq<Pos>, variance: Pos -> real, lim: Limits)
    ensures Scan(Scanning(found, gap), cells, variance, lim) ==
      if HasAmbiguous(cells, variance, lim) || HasGapBefore(cells, gap, variance, lim) then Rejected
      else Scanning(found + CandidateCells(cells, variance, lim), gap || HasBackground(cells, variance, lim))
    decreases |cells|
  {
    if |cells| == 0 {
      assert found + [] == found;
    } else {
      var p, rest := cells[0], cells[1..];
      ShiftAmbiguous(cells, variance, lim);
      ShiftBackground(cells, variance, lim);
      if !IsCandidate(p, variance, lim) {
        ShiftGapAfterBackground(cells, gap, variance, lim);
        ScanOutcome(found, true, rest, variance, lim);
      } else if IsAmbiguous(p, variance, lim) {
        RejectedStays(rest, variance, lim);
      } else if gap {
        assert HasGapBefore(cells, gap, variance, lim) by {
          assert IsCandidate(cells[0], variance, lim);
        }
        RejectedStays(rest, variance, lim);
      } else {
        ShiftGapAfterCandidate(cells, variance, lim);
        ScanOutcome(found + [p], false, rest, variance, lim);
        assert found + [p] + CandidateCells(rest, variance, lim) == found + CandidateCells(cells, variance, lim);
      }
    }
  }

  /** The strip holds a cell too varied to be a thumbnail. */
  ghost predicate AnyAmbiguous(rows: nat, cols: nat, variance: Pos -> real, lim: Limits)
  {
    exists p :: InBox(p, 0, cols, 0, rows) && IsAmbiguous(p, variance, lim)
  }

  /** A candidate follows a background cell in row-major order. */
  ghost predicate AnyGap(rows: nat, cols: nat, variance: Pos -> real, lim: Limits)
  {
    exists p, q :: InBox(p, 0, cols, 0, rows) && InBox(q, 0, cols, 0, rows) && Before(p, q) &&
      !IsCandidate(p, variance, lim) && IsCandidate(q, variance, lim)
  }

  /** Every cell of the strip is a candidate. */
  ghost predicate AllCandidates(rows: nat, cols: nat, variance: Pos -> real, lim: Limits)
  {
    forall p :: InBox(p, 0, cols, 0, rows) ==> IsCandidate(p, variance, lim)
  }

  /** The three reasons to distrust the strip. */
  ghost predicate Distrusted(rows: nat, cols: nat, variance: Pos -> real, lim: Limits)
  {
    AnyAmbiguous(rows, cols, variance, lim) || AnyGap(rows, cols, variance, lim) ||
    AllCandidates(rows, cols, variance, lim)
  }

  /** `getAllPuzzleThumbLoc`: empty when the strip is distrusted, otherwise
      exactly the candidate cells, in row-major order, fewer than the
      strip's capacity. */
  function ThumbLocs(rows: nat, cols: nat, variance: Pos -> real, lim: Limits): (r: seq<Pos>)
    ensures Distrusted(rows, cols, variance, lim) ==> r == []
    ensures !Distrusted(rows, cols, variance, lim) ==>
      && (forall p :: p in r <==> InBox(p, 0, cols, 0, rows) && IsCandidate(p, variance, lim))
      && RowMajorSorted(r)
      && |r| < rows * cols
    ensures (forall p :: InBox(p, 0, cols, 0, rows) ==> !IsCandidate(p, variance, lim)) ==> r == []
  {
    var cells := RowMajor(0, cols, 0, rows);
    ThumbOutcome(rows, cols, variance, lim);
    CandidateCellsSorted(cells, variance, lim);
    assert forall i :: 0 <= i < |cells| ==> cells[i] in cells;
    match Scan(Scanning([], false), cells, variance, lim)
    case Rejected => []
    case Scanning(found, _) => if |found| >= rows * cols then [] else found
  }

  /** The scan over the whole strip, restated in terms of cells rather than
      scan indices. */
  lemma ThumbOutcome(rows: nat, cols: nat, variance: Pos -> real, lim: Limits)
    ensures var cells := RowMajor(0, cols, 0, rows);
      var st := Scan(Scanning([], false), cells, variance, lim);
      && (st.Rejected? <==> AnyAmbiguous(rows, cols, variance, lim) || AnyGap(rows, cols, variance, lim))
      && (st.Scanning? ==> st.found == CandidateCells(cells, variance, lim))
      && |cells| == rows * cols
      && (|CandidateCells(cells, variance, lim)| >= rows * cols <==> AllCandidates(rows, cols, variance, lim))
  {
    var cells := RowMajor(0, cols, 0, rows);
    ScanOutcome([], false, cells, variance, lim);
    assert [] + CandidateCells(cells, variance, lim) == CandidateCells(cells, variance, lim);
    AmbiguousCells(rows, cols, variance, lim);
    GapCells(rows, cols, variance, lim);
    FullCells(rows, cols, variance, lim);
  }

  lemma AmbiguousCells(rows: nat, cols: nat, variance: Pos -> real, lim: Limits)
    ensures HasAmbiguous(RowMajor(0, cols, 0, rows), variance, lim) <==> AnyAmbiguous(rows, cols, variance, lim)
  {
    var cells := RowMajor(0, cols, 0, rows);
    if AnyAmbiguous(rows, cols, variance, lim) {
      var p :| InBox(p, 0, cols, 0, rows) && IsAmbiguous(p, variance, lim);
      var i :| 0 <= i < |cells| && cells[i] == p;
    }
    if HasAmbiguous(cells, variance, lim) {
      var i :| 0 <= i < |cells| && IsAmbiguous(cells[i], variance, lim);
      assert cells[i] in cells;
    }
  }

  lemma GapCells(rows: nat, cols: nat, variance: Pos -> real, lim: Limits)
    ensures HasGapBefore(RowMajor(0, cols, 0, rows), false, variance, lim) <==> AnyGap(rows, cols, variance, lim)
  {
    var cells := RowMajor(0, cols, 0, rows);
    if HasGapBefore(cells, false, variance, lim) {
      var j :| 0 <= j < |cells| && IsCandidate(cells[j], variance, lim) &&
        exists i :: 0 <= i < j && !IsCandidate(cells[i], variance, lim);
      var i :| 0 <= i < j && !IsCandidate(cells[i], variance, lim);
      assert cells[i] in cells && cells[j] in cells;
      assert Before(cells[i], cells[j]);
    }
    if AnyGap(rows, cols, variance, lim) {
      var p, q :| InBox(p, 0, cols, 0, rows) && InBox(q, 0, cols, 0, rows) && Before(p, q) &&
        !IsCandidate(p, variance, lim) && IsCandidate(q, variance, lim);
      var i :| 0 <= i < |cells| && cells[i] == p;
      var j :| 0 <= j < |cells| && cells[j] == q;
      SortedIndexOrder(cells, i, j);
    }
  }

  lemma FullCells(rows: nat, cols: nat, variance: Pos -> real, lim: Limits)
    ensures |RowMajor(0, cols, 0, rows)| == rows * cols
    ensures |CandidateCells(RowMajor(0, cols, 0, rows), variance, lim)| >= rows * cols <==>
      AllCandidates(rows, cols, variance, lim)
  {
    var cells := RowMajor(0, cols, 0, rows);
    StripSize(rows, cols);
    if forall i :: 0 <= i < |cells| ==> IsCandidate(cells[i], variance, lim) {
      forall p | InBox(p, 0, cols, 0, rows) ensures IsCandidate(p, variance, lim) {
        var i :| 0 <= i < |cells| && cells[i] == p;
      }
    }
    if AllCandidates(rows, cols, variance, lim) {
      assert forall i :: 0 <= i < |cells| ==> cells[i] in cells;
    }
  }

  /** The strip sweep visits `rows * cols` cells. */
  lemma StripSize(rows: nat, cols: nat)
    ensures |RowMajor(0, cols, 0, rows)| == rows * cols
  {
    if rows == 0 || cols == 0 {
      assert rows * cols == 0;
    }
  }
}
